=== FILE: README.md ===
# chaoxin.js quiz exporter — a Dafny model

chaoxin.js is a userscript for the Chaoxing learning platform's quiz-review
pages. It reads the questions shown on the page into a question model: the
type sections, each question's text, options, the user's answer, the correct
answer, the explanation and the embedded images. It then numbers and displays
the questions and lets the user select some. The selection is exported as an
Excel sheet, a Word document or a PDF. The script can also ask an AI provider
to explain a question and keeps the answer with the question.

This project models that core as pure Dafny functions over immutable data and
proves what each step promises. The modules follow the script's structure:

- `Text`: string helpers (trimming, splitting, joining, decimal digits).
- `Lines`: the non-blank line filter the option lists use.
- `Model`: the question model and the numbering of questions at display time.
- `Extraction`: `parseQuestions`, `findAllImages`, `getImageAsBase64` and the
  progress percentage. The page is an abstract tree of section, question and
  image nodes. The image loader is a function parameter.
- `Selection`: the checkbox selection, including shift-click ranges,
  select all/none, and selecting the wrong or correct questions.
- `Export`: `prepareExportData` (rows and base file name), `processQuestionTitle`
  and `processAnswer`.
- `Render`: the Excel sheet, and the Word and PDF documents as block
  structures. Covers grouping by type, `formatAnswer`'s escaping and the image
  figures.
- `Pagination`: the PDF page layout loop, as written and corrected.
- `SettingsMerge`: the defaults, `loadSettings` and `saveSettings`.
- `Prompt`: the AI question table, the choice of subject template,
  `generatePrompt`, `getAPIName`, and writing an answer back.
- `Preview`: the limits the export previews apply.

Question ids: the script assigns the strings `q_0`, `q_1`, … at display time.
In the model a question's id is `Some(k)` for `q_k` and `None` before display.

## Model

| member | source | states |
|---|---|---|
| Model.AssignIds | chaoxin.js:3165-3173 | display numbers the questions 0..N-1 in document order across all sections; only the id of each question changes and every section keeps its name and size |
| Model.Total | chaoxin.js:3093 | the question count summed over the sections equals the number of questions in document order |
| Extraction.TextOr | chaoxin.js:2919 | `el?.innerText \|\| d` gives the element's text when it exists and is non-empty, else the default |
| Extraction.DirectImages | chaoxin.js:3476-3487 | the first pass keeps exactly the descendant images with a non-empty src |
| Extraction.ContainerPassAddsNothing | chaoxin.js:3489-3513 | when every container match lies inside the question, the container pass adds no image, so `findAllImages` equals the direct pass |
| Extraction.NormalisationUnreachable | chaoxin.js:3529-3535 | a URL accepted by the scheme test never starts with '/', so the protocol/origin rewriting is the identity |
| Extraction.GuardIsSchemeTest | chaoxin.js:3520 | the resolver's guard passes exactly when the scheme test passes; the empty and blank tests never decide |
| Extraction.Resolve | chaoxin.js:3517-3568 | the resolver rejects exactly the URLs the scheme test refuses; a data image comes back unchanged; a failed load gives the original URL; a successful load gives the encoded data |
| Extraction.Dedup | chaoxin.js:2944-2950 | each found image with a non-empty, unseen src gets one resolver call; srcs are distinct and every call comes from a found image |
| Extraction.Records | chaoxin.js:2953-2975 | one image record per resolver call, in order, with alt defaulted and data set to what the resolver settled with |
| Extraction.OptionTexts | chaoxin.js:2983-2993 | the options are the non-empty `li` texts, none dropped, none invented; with no empty item they are the items themselves |
| Extraction.OptionTextsAppend | chaoxin.js:2986-2991 | the options of two item lists in a row are the first list's options followed by the second's, so order and repeated options are kept |
| Extraction.SettledImagesWellFormed | chaoxin.js:2953-2977 | whatever order the resolver calls settle in, the image list keeps distinct srcs, covers every found image and holds resolved records |
| Extraction.ExtractedQuestionFields | chaoxin.js:2928-3017 | an extracted question has no id or AI answer yet, a non-empty text (default when the name is missing), non-empty options, empty answers when their elements are missing, and well-formed images |
| Extraction.ExplanationFirstFilled | chaoxin.js:3004-3012 | the explanation is the first non-empty of the four selectors in order, and it is empty only when none is filled |
| Extraction.ExtractSections | chaoxin.js:2917-3021 | one section per `.mark_item` node, in order, each the extraction of its node |
| Extraction.ParseQuestions | chaoxin.js:2891-3021 | no section node is the "no content" outcome and leaves the model unchanged; otherwise the model is extended by one named section per node, each with as many questions as its node |
| Extraction.Percent | chaoxin.js:3035 | the progress percentage lies between 0 and 100, is 100 exactly when all calls have settled, and is 0 before any has |
| Extraction.PercentMonotone | chaoxin.js:3032-3037 | more settled calls never lower the percentage |
| Extraction.ClampPercent | chaoxin.js:2851 | the bar's percentage is clamped into 0..100 and unchanged inside it |
| Selection.Cleared | chaoxin.js:3088-3090 | display empties the selection and forgets the anchor |
| Selection.Click | chaoxin.js:3318-3353 | a plain click toggles the clicked id and makes it the anchor; a shift-click with an anchor gives every id between the anchor and the clicked one the clicked box's new state, keeps the anchor and touches nothing else |
| Selection.ClickTwiceRestores | chaoxin.js:3341-3349 | two plain clicks on one checkbox restore the selection |
| Selection.ShiftClickOnAnchor | chaoxin.js:3323-3340 | a shift-click on the anchor itself changes the selection as a plain click does but keeps the anchor |
| Selection.SelectAll | chaoxin.js:3357-3368 | select-all selects exactly the displayed ids and keeps the anchor |
| Selection.DeselectAll | chaoxin.js:3371-3382 | deselect-all leaves nothing selected and keeps the anchor |
| Selection.SelectWrong | chaoxin.js:3385-3416 | after select-wrong, exactly the questions flagged wrong are selected |
| Selection.SelectCorrect | chaoxin.js:3419-3450 | after select-correct, exactly the questions flagged correct are selected |
| Selection.WrongCorrectDisjoint | chaoxin.js:3241-3242 | no question is both wrong and correct; with answers hidden neither flag is ever set |
| Selection.WrongOrCorrect | chaoxin.js:3241-3242 | without hiding, wrong or correct holds exactly for the questions with both answers present |
| Selection.Redisplay | chaoxin.js:3084-3173 | displaying numbers the questions well and starts an empty selection valid for the new list |
| Export.RowFields | chaoxin.js:3606-3618 | each row field: the answer and the mark depend on the hide setting; empty explanations, AI answers and image lists get their placeholders |
| Export.RowOptionsRoundTrip | chaoxin.js:3609 | options without line breaks come back from the joined cell by splitting it |
| Export.PrepareRows | chaoxin.js:3599-3623 | the nested loop collects the rows of exactly the exported questions, in document order |
| Export.ChosenArePicked | chaoxin.js:3601-3605 | the exported questions are the entries at the picked positions, in order |
| Export.ExportAllWhenNothingSelected | chaoxin.js:3603-3605 | with nothing selected every question is exported, in document order |
| Export.ExportSelected | chaoxin.js:3603-3605 | with a selection, exactly the questions whose id is selected are exported, in ascending order, one row per selected id in the list |
| Export.ExportCountsSelection | chaoxin.js:3594-3605 | when every selected id is displayed, a non-empty selection yields one row per selected id |
| Export.TitleChoice | chaoxin.js:3573-3580 | the title is the custom title, else the page title, else the default; a blank choice falls back to the default and the result is never blank |
| Export.SelectionSuffix | chaoxin.js:3593-3596 | the suffix is present exactly when some but not all displayed questions are selected, and its digits read back as the count |
| Export.BaseFilename | chaoxin.js:3572-3596 | the file name starts with the title and ends with the selection suffix; without a time stamp it is just those two (where the stamp goes is stated by Export.FilenameStampRoundTrip) |
| Export.StampRoundTrip | chaoxin.js:3584-3589 | the thirteen-character stamp of a valid clock reads back as that clock |
| Export.FilenameStampRoundTrip | chaoxin.js:3583-3596 | with a time stamp the name is the title, an underscore, the 13-character stamp and the selection suffix, and the clock reads back from the characters just before the suffix, with or without one |
| Export.ProcessTitle | chaoxin.js:3694-3709 | an empty title becomes "n. "; a trimmed title that is already numbered is kept; otherwise "n. " is put in front; the result is always numbered |
| Export.ProcessTitleIdempotent | chaoxin.js:3694-3709 | processing a processed non-blank title again, with any index, changes nothing |
| Export.StripLabel | chaoxin.js:3718 | the first matching label, its colon and the white space after it are removed; a text without a label is unchanged |
| Export.ProcessAnswer | chaoxin.js:3712-3721 | the answer is trimmed and loses at most one leading label; an empty answer stays empty |
| Export.ProcessAnswerStripsLabel | chaoxin.js:3712-3721 | a label and a colon put before a trimmed answer are removed again |
| Render.OfType | chaoxin.js:3737-3743 | the rows of one type, in order |
| Render.Labels | chaoxin.js:3783 | the type labels in order of first appearance, each once, covering every row |
| Render.GroupByTypeIsGrouping | chaoxin.js:3736-3744 | the grouping reduce, read back in key order, gives one group per type in order of first appearance, each holding that type's rows in order |
| Render.LabelsInFirstOccurrenceOrder | chaoxin.js:3783 | groups follow the order of the first row of each type |
| Render.GroupingKeepsEveryRow | chaoxin.js:3955-3962 | grouping neither drops nor duplicates rows |
| Render.ExcelCells | chaoxin.js:3647-3654 | each sheet row has one cell per column key |
| Render.WidestLine | chaoxin.js:3659-3667 | the widest line bounds every line of every value in the column and is attained by one of them |
| Render.ColumnWidth | chaoxin.js:3660-3671 | the width sizes its column: at most 50; unless capped, two wider than the key and every line and equal to one of those plus two; capped only when the key or a line reaches the cap |
| Render.ColumnSizedUnique | chaoxin.js:3660-3671 | those conditions leave exactly one width, so they fix `min(max(longest line, key) + 2, 50)` |
| Render.ExcelSheet | chaoxin.js:3629-3671 | no rows is the no-data error; otherwise the header is the nine keys, sheet row i holds the cells of data row i, and every column's width is the one width that sizes that column under its key |
| Render.ExcelImageColumn | chaoxin.js:3649-3651 | the image cell is empty exactly when the question has no images; otherwise it names the image count; "无图片" never appears |
| Render.FormatAnswerEscapes | chaoxin.js:4543-4547 | the chained replacements equal escaping each character once: & < > and line breaks |
| Render.FormatAnswerRoundTrip | chaoxin.js:4537-4547 | unescaping the output of the escaping stages gives back the answer |
| Render.EscapeQuotes | chaoxin.js:3801 | the escaped alt text holds no double quote, and a text without one is kept as it is |
| Render.EscapeQuotesAppend | chaoxin.js:3801 | escaping works character by character: a quote becomes `&quot;`, any other character stays, in order |
| Render.FigureOfAlt | chaoxin.js:3799-3801 | a figure's source is the image's data or else its URL; its alt is "题目图片" when the image has none, and the image's own alt when that holds no quote |
| Render.Figures | chaoxin.js:3796-3810 | an image without a source is skipped; every figure has a source and a quote-free alt |
| Render.FiguresOfResolved | chaoxin.js:3797-3801 | when every image has a source, figure k is exactly the figure of image k: its source and its defaulted, escaped alt |
| Render.FiguresEmpty | chaoxin.js:3796-3800 | no figure is written exactly when no image has a source |
| Lines.NonBlank | chaoxin.js:3815-3820 | the listed options are non-blank lines of the option text, and all of them when none is blank |
| Lines.NonBlankKeeps | chaoxin.js:3815-3820 | the filter keeps exactly the lines at the non-blank positions, in order: none dropped, none reordered |
| Render.BlockOfEntry | chaoxin.js:3788-3864 | each part of a question block is present exactly when the renderer writes it: numbered title, options, my answer unless hidden, correct answer when present, mismatch note when answers differ, explanation, AI answer whose escaping stages read back as the answer |
| Render.GroupBlockOf | chaoxin.js:3783-3791 | a group's heading is its type and its questions are numbered from 0 within the group |
| Render.RemoveFirst | chaoxin.js:3777 | `replace` with a string pattern changes nothing when the pattern does not occur, and never lengthens |
| Render.RemoveFirstAt | chaoxin.js:3777 | when a non-empty pattern first occurs at i, exactly that occurrence is cut and the text before and after it is kept |
| Render.RemoveExtension | chaoxin.js:3777 | removing an extension from a name that ends with it and holds it nowhere else gives back the name |
| Render.WordDocument | chaoxin.js:3724-3729 | no rows is the no-data error, otherwise a document |
| Render.PdfDocument | chaoxin.js:3919-3924 | no rows is the no-data error, otherwise a document |
| Render.DocumentTitles | chaoxin.js:3968 | for the file names the buttons pass, the Word title is the base name and the PDF title is the custom title if any, else the base name |
| Render.DocumentHoldsEveryRow | chaoxin.js:3976-3981 | the document has one group per type label, in order; question j of a group is the block of the j-th row of that type, numbered from 0 within the group |
| Pagination.RunAsWritten | chaoxin.js:4089-4152 | the layout loop as written keeps at least one page |
| Pagination.ReportedPagesAsWritten | chaoxin.js:4124-4132 | as written, once a chunk has overflowed, the reported page total is one more than the pages in the file |
| Pagination.OverlapAsWritten | chaoxin.js:4124-4143 | three chunks of height 300 on an 842 page: the third is drawn over the first on the single page, stamped page 2, and two pages are reported |
| Pagination.Run | chaoxin.js:4124-4137 | the corrected loop keeps its invariant: the pages counted match the pages added, every chunk sits on an existing page below the top margin with its own page number, and chunks on a page follow each other with the gap |
| Pagination.PagesCorrected | chaoxin.js:4124-4161 | with a page added on every overflow, the reported total equals the pages in the file and no two chunks overlap |
| Pagination.ChunksFit | chaoxin.js:4124-4136 | every chunk no taller than the printable height ends above the bottom margin |
| Pagination.EveryRenderedChunkPlaced | chaoxin.js:4112-4151 | each drawn chunk is placed once; a chunk whose turn failed, before or after the overflow test, is not placed, in both loops |
| Pagination.DrawFailedTurnsPage | chaoxin.js:4112-4149 | a chunk that fails after the overflow test still moves the cursor to a new page when it overflows, in both loops, without placing anything |
| Pagination.SameBeforeOverflow | chaoxin.js:4124-4132 | the corrected and the written loop agree until the first overflow |
| Pagination.Chunks | chaoxin.js:4066-4067 | there is one chunk per type heading and one per question |
| Pagination.ChunksOrder | chaoxin.js:4066-4067 | each group contributes its heading at its offset, followed by its questions in order, the groups in document order |
| Pagination.Layout | chaoxin.js:4066-4152 | laying out a document's chunks keeps the corrected loop's invariant, places at most one chunk per heading and question, and every one when all are drawn |
| SettingsMerge.Pick | chaoxin.js:67-72 | a defined saved field wins over the current value |
| SettingsMerge.Load | chaoxin.js:60-91 | a missing or unparsable blob changes nothing; a saved object without AI settings leaves them alone |
| SettingsMerge.SaveLoad | chaoxin.js:94-105 | loading what was saved restores it, whatever the settings were before |
| SettingsMerge.LoadIdempotent | chaoxin.js:60-91 | loading the same blob twice is loading it once |
| SettingsMerge.TemplatesAfterLoad | chaoxin.js:75-86 | the templates stay complete unless the saved object carries an incomplete one; a falsy one restores the defaults |
| SettingsMerge.PartialTemplatesKept | chaoxin.js:76 | a saved template object that lacks a template is kept as it is |
| Prompt.Register | chaoxin.js:3273-3279 | display adds a record per displayed id and never removes one |
| Prompt.RegisterNumbered | chaoxin.js:3272-3279 | after display, id k holds the record of the k-th question and other ids keep their records |
| Prompt.FindRun | chaoxin.js:4340-4341 | the scan finds a run of at least n ASCII letters exactly when one exists |
| Prompt.ClassifyPriorities | chaoxin.js:4336-4347 | a digit or operator makes a question mathematics; otherwise a three-letter word makes it English; "translate" never decides alone; the default template is used exactly when none of the other eleven tests fires |
| Prompt.DefaultTemplates | chaoxin.js:45-56 | with the default settings each subject gets its own template |
| Prompt.GeneratePrompt | chaoxin.js:4328-4331 | the prompt is empty exactly for an id the table does not hold |
| Prompt.PromptLayout | chaoxin.js:4349-4366 | the prompt starts with the template and the question, ends with the closing request, and is just those when there are no options and no answer |
| Prompt.OptionsBlockLines | chaoxin.js:4353-4359 | the options block lists exactly the options, one per line |
| Prompt.RegeneratePrompt | chaoxin.js:4455 | asking again sends the prompt followed by the request for a different approach |
| Prompt.ApiName | chaoxin.js:4559-4567 | the generic name is used exactly for an unknown provider |
| Prompt.ApiNamesDistinct | chaoxin.js:4559-4567 | the four providers get four different names |
| Prompt.WriteBackActive | chaoxin.js:4400-4403 | the answer is stored in the table record of the id, if there is one; no other record changes |
| Prompt.WriteBackExactlyOne | chaoxin.js:4405-4413 | with well-numbered ids, writing back changes only the AI answer of that question and nothing else |
| Preview.Shown | chaoxin.js:5174-5175 | the preview shows a prefix of at most the limit and counts the rest |
| Preview.Truncate | chaoxin.js:5279-5281 | a text of at most 100 characters is kept; a longer one is cut to its first 100 and marked |
| Preview.PreviewOptions | chaoxin.js:5465-5482 | the lines shown are exactly the non-blank ones among the first four, in order; an ellipsis follows exactly when there are more than four lines |
| Preview.PageEstimate | chaoxin.js:5542-5560 | the page estimate appears only when types are left out, and is the cover, two pages and one and a half per remaining type, rounded up |
| Preview.PageEstimateMonotone | chaoxin.js:5542-5560 | the estimate grows with the number of types and exceeds it |

## Left out

- Storage, network and platform: CSS, DOM building and event wiring, toasts
  and animations, `localStorage` access, the HTTP requests to the AI
  providers, and the canvas, html2canvas, jsPDF and XLSX libraries. These are
  I/O or foreign code. Their inputs and outputs are parameters of the model:
  the page tree, the image loader, the saved blob, the chunk heights.
- The clock: `new Date()` is a `Clock` parameter.
- `temperature` in the AI settings: a float that no modelled operation reads.
- Markup: the literal HTML and styling of the documents and previews. The
  documents are modelled as block structures, so the quote escaping of alt
  text is the only escaping proved for them.
- Lengths: JavaScript counts UTF-16 code units, while the model counts
  characters. The three members this affects have their own lines below.
- Pagination heights: canvas heights are non-negative reals in the script and
  natural numbers in the model.
- JSON typing: saved settings are typed. A saved `null` or a value of the
  wrong type for a basic field is not modelled.
- Image record order: records arrive in settling order. The model builds them
  in discovery order and proves the properties hold for any order.
- The Excel preview's cell truncation and the Word preview's layout beyond the
  limits in `Preview`.
- Render.FormatAnswerEscapes: states the HTML escaping and line breaks only.
  It does not model the later markdown rewrites of `**`, `*` and backticks into
  tags.
- Render.FormatAnswerRoundTrip: the round trip is about the escaping stages.
  The script's output also has the Markdown rewrites applied, so reading the
  answer back from what the script renders is guaranteed only for answers
  with no `*` and no backtick: an answer `**x**` is rendered as `<strong>x</strong>`.
- Render.BlockOfEntry: the block's AI answer is the output of the escaping
  stages, without the Markdown rewrites, so its read-back clause is guaranteed
  for the script's rendering only for answers with no `*` and no backtick.
  It also covers only option texts that are non-empty and free of
  line breaks. Extraction can produce an option with a line break, since
  `innerText` turns `<br>` and block children into one. The script would then
  show that option as two lines; the lemma says nothing about that case.
- Preview.Truncate: cuts by characters rather than UTF-16 code units.
- Render.ColumnWidth: measures line and key lengths in characters rather than
  UTF-16 code units, so text outside the Basic Multilingual Plane gives a
  narrower width than the script's.
- Render.WidestLine: counts characters rather than UTF-16 code units, for the
  same reason.
- Render.ExcelSheet: its width clauses measure lengths in characters, as
  Render.ColumnWidth does.
- Extraction.Percent: the model takes the integer quotient
  `completed * 100 / total`. The script computes
  `Math.floor((completed / total) * 100)` in floating point, which can be one
  lower: 29 of 100 gives 28 there and 29 here. The bounds, the 100 exactly when
  all calls have settled, and the monotonicity hold for both formulas.
- Render.GroupByTypeIsGrouping: the script groups rows into a plain object and
  reads the groups back in key order. Two kinds of type label break the
  first-appearance order the model proves. Integer-like labels ("1", "2") come
  first, in numeric order. A label naming an inherited property
  ("constructor", "toString", "__proto__") makes the `push` throw, and no
  document is written. The model treats every label as an ordinary string key.
- Render.LabelsInFirstOccurrenceOrder: holds only for the labels the line
  above calls ordinary.
- Render.DocumentHoldsEveryRow: its group order holds only for the labels the
  Render.GroupByTypeIsGrouping line calls ordinary.

## Findings

| source | as written | input that shows it | evidently intended | confidence | as-written member | corrected member |
|---|---|---|---|---|---|---|
| chaoxin.js:4124-4132 | On overflow, `pdf.addPage()` runs only when `pageIndex > 0`, but `pageIndex` is still incremented. The first overflow therefore stays on page 1. | Page height 842 and three rendered chunks of height 300. The third chunk overflows and is drawn at y=40 over the first. The file has one page, stamped "Page 2", and the script reports two pages (line 4158). | Add a page on every overflow, so the reported total equals the pages in the file and chunks never overlap. | not executed | Pagination.OverlapAsWritten | Pagination.PagesCorrected |

=== FILE: export.dfy ===
/** The export projection: the question model, the selection and the
    settings become flat rows (one per exported question) and a base file
    name; plus the two text clean-ups every document renderer applies, the
    numbering of question titles and the stripping of answer labels. */
module Export {
  import opened Wrappers
  import opened Text
  import opened Model

  const HiddenAnswer := "[已隐藏]"
  const DefaultTitle := "题目解析"
  const Right := "✓"
  const Wrong := "✗"
  const NoMark := "-"
  const NoExplanation := "-"

  /** One exported row; `aiAnswer` and `images` are `None` where the source
      stores `null`. */
  datatype Row = Row(
    typeLabel: string,
    question: string,
    options: string,
    myAnswer: string,
    correctAnswer: string,
    marker: string,
    explanation: string,
    aiAnswer: Option<string>,
    images: Option<seq<Image>>)

  /** The row of one question under the hide-my-answers setting. */
  function RowOf(e: Entry, hidden: bool): Row {
    var q := e.question;
    Row(
      e.section,
      q.text,
      Join(q.options, '\n'),
      if hidden then HiddenAnswer else q.myAnswer,
      q.correctAnswer,
      if hidden then NoMark else if q.myAnswer == q.correctAnswer then Right else Wrong,
      if q.explanation != "" then q.explanation else NoExplanation,
      if q.aiAnswer.Some? && q.aiAnswer.value != "" then q.aiAnswer else None,
      if |q.images| > 0 then Some(q.images) else None)
  }

  /** The fields of a row: the answer and the marker depend on the setting,
      and empty explanations, AI answers and image lists get their
      placeholders. */
  lemma RowFields(e: Entry, hidden: bool)
    ensures var r := RowOf(e, hidden); var q := e.question;
      && r.typeLabel == e.section && r.question == q.text && r.correctAnswer == q.correctAnswer
      && (hidden ==> r.myAnswer == HiddenAnswer && r.marker == NoMark)
      && (!hidden ==> r.myAnswer == q.myAnswer)
      && (!hidden ==> (r.marker == Right <==> q.myAnswer == q.correctAnswer))
      && (!hidden ==> (r.marker == Wrong <==> q.myAnswer != q.correctAnswer))
      && (q.explanation != "" ==> r.explanation == q.explanation)
      && (q.explanation == "" ==> r.explanation == NoExplanation)
      && (r.aiAnswer.Some? <==> q.aiAnswer.Some? && q.aiAnswer.value != "")
      && (r.aiAnswer.Some? ==> r.aiAnswer.value == q.aiAnswer.value)
      && (r.images.Some? <==> |q.images| > 0)
      && (r.images.Some? ==> r.images.value == q.images)
  {
  }

  /** Options whose texts are non-empty and free of line breaks travel
      through the row's joined cell and come back by splitting it. */
  lemma RowOptionsRoundTrip(e: Entry, hidden: bool)
    requires |e.question.options| > 0
    requires forall k :: 0 <= k < |e.question.options| ==> Free(e.question.options[k], '\n')
    ensures Split(RowOf(e, hidden).options, '\n') == e.question.options
  {
    SplitJoin(e.question.options, '\n');
  }

  // ----- which questions are exported -----

  /** An empty selection exports everything; otherwise a question is
      exported when its id is selected. */
  predicate Exported(sel: set<nat>, q: Question) {
    sel == {} || (q.id.Some? && q.id.value in sel)
  }

  /** The exported questions, in document order. */
  function Chosen(es: seq<Entry>, sel: set<nat>): (r: seq<Entry>)
    ensures |r| <= |es|
  {
    if |es| == 0 then []
    else
      var n := |es| - 1;
      Chosen(es[..n], sel) + (if Exported(sel, es[n].question) then [es[n]] else [])
  }

  /** One row per entry, in order. */
  function RowsOf(es: seq<Entry>, hidden: bool): (r: seq<Row>)
    ensures |r| == |es| && forall i :: 0 <= i < |es| ==> r[i] == RowOf(es[i], hidden)
  {
    seq(|es|, i requires 0 <= i < |es| => RowOf(es[i], hidden))
  }

  /** The rows of the exported questions. */
  function Rows(es: seq<Entry>, sel: set<nat>, hidden: bool): seq<Row> {
    RowsOf(Chosen(es, sel), hidden)
  }

  /** The positions of the exported questions, ascending. */
  function Picked(es: seq<Entry>, sel: set<nat>): (p: seq<nat>)
    ensures forall i, j :: 0 <= i < j < |p| ==> p[i] < p[j]
    ensures forall i :: 0 <= i < |p| ==> p[i] < |es| && Exported(sel, es[p[i]].question)
    ensures forall k :: 0 <= k < |es| && Exported(sel, es[k].question) ==> k in p
  {
    if |es| == 0 then []
    else
      var n := |es| - 1;
      var front := Picked(es[..n], sel);
      assert forall k :: 0 <= k < n ==> es[..n][k] == es[k];
      front + (if Exported(sel, es[n].question) then [n] else [])
  }

  /** The exported questions are the entries at exactly the picked positions. */
  lemma {:induction false} ChosenArePicked(es: seq<Entry>, sel: set<nat>)
    ensures var p := Picked(es, sel); var c := Chosen(es, sel);
      && |c| == |p|
      && forall i :: 0 <= i < |p| ==> p[i] < |es| && c[i] == es[p[i]]
  {
    if |es| > 0 {
      var n := |es| - 1;
      ChosenArePicked(es[..n], sel);
      var front := Picked(es[..n], sel);
      var cf := Chosen(es[..n], sel);
      forall i | 0 <= i < |front| ensures front[i] < n && cf[i] == es[front[i]] {
        assert es[..n][front[i]] == es[front[i]];
      }
      PickedStep(es, sel, front, cf);
    }
  }

  /** The last entry joins the chosen ones exactly when its position joins
      the picked ones. */
  lemma PickedStep(es: seq<Entry>, sel: set<nat>, front: seq<nat>, cf: seq<Entry>)
    requires |es| > 0 && |cf| == |front|
    requires forall i :: 0 <= i < |front| ==> front[i] < |es| - 1 && cf[i] == es[front[i]]
    ensures var n := |es| - 1; var last := Exported(sel, es[n].question);
      var c := cf + (if last then [es[n]] else []);
      var p := front + (if last then [n] else []);
      |c| == |p| && forall i :: 0 <= i < |p| ==> p[i] < |es| && c[i] == es[p[i]]
  {
  }

  /** The chosen entries of a longer list extend those of its prefix. */
  lemma ChosenSnoc(a: seq<Entry>, e: Entry, sel: set<nat>)
    ensures Chosen(a + [e], sel) == Chosen(a, sel) + (if Exported(sel, e.question) then [e] else [])
  {
    assert (a + [e])[..|a|] == a;
  }

  lemma EntriesAppend(sections: seq<Section>, i: nat)
    requires i < |sections|
    ensures Entries(sections[..i + 1]) == Entries(sections[..i]) + Tag(sections[i].name, sections[i].questions)
    decreases i
  {
    if i > 0 {
      assert sections[..i + 1][1..] == sections[1..][..i];
      assert sections[..i][1..] == sections[1..][..i - 1];
      EntriesAppend(sections[1..], i - 1);
    } else {
      assert sections[..1][1..] == [];
    }
  }

  /** One more question seen by the inner loop. */
  lemma ChosenStep(before: seq<Entry>, name: string, qs: seq<Question>, j: nat, sel: set<nat>)
    requires j < |qs|
    ensures Chosen(before + Tag(name, qs[..j + 1]), sel)
      == Chosen(before + Tag(name, qs[..j]), sel) + (if Exported(sel, qs[j]) then [Entry(name, qs[j])] else [])
  {
    var e := Entry(name, qs[j]);
    assert Tag(name, qs[..j + 1]) == Tag(name, qs[..j]) + [e];
    assert before + Tag(name, qs[..j + 1]) == (before + Tag(name, qs[..j])) + [e];
    ChosenSnoc(before + Tag(name, qs[..j]), e, sel);
  }

  lemma RowsOfSnoc(es: seq<Entry>, e: Entry, hidden: bool)
    ensures RowsOf(es + [e], hidden) == RowsOf(es, hidden) + [RowOf(e, hidden)]
  {
    assert forall i :: 0 <= i < |es| ==> (es + [e])[i] == es[i];
  }

  /** One more question seen by the inner loop adds its row when it is
      exported. */
  lemma RowsStep(before: seq<Entry>, name: string, qs: seq<Question>, j: nat, sel: set<nat>, hidden: bool)
    requires j < |qs|
    ensures Rows(before + Tag(name, qs[..j + 1]), sel, hidden)
      == Rows(before + Tag(name, qs[..j]), sel, hidden) + (if Exported(sel, qs[j]) then [RowOf(Entry(name, qs[j]), hidden)] else [])
  {
    ChosenStep(before, name, qs, j, sel);
    var c := Chosen(before + Tag(name, qs[..j]), sel);
    if Exported(sel, qs[j]) {
      RowsOfSnoc(c, Entry(name, qs[j]), hidden);
    } else {
      assert c + [] == c;
    }
  }

  /** The nested loop over sections and their questions that collects the
      rows of the exported questions. */
  method PrepareRows(sections: seq<Section>, sel: set<nat>, hidden: bool) returns (rows: seq<Row>)
    ensures rows == Rows(Entries(sections), sel, hidden)
  {
    rows := [];
    var i := 0;
    while i < |sections|
      invariant 0 <= i <= |sections|
      invariant rows == Rows(Entries(sections[..i]), sel, hidden)
    {
      var s := sections[i];
      var before := Entries(sections[..i]);
      var j := 0;
      assert before + Tag(s.name, s.questions[..0]) == before;
      while j < |s.questions|
        invariant 0 <= j <= |s.questions|
        invariant rows == Rows(before + Tag(s.name, s.questions[..j]), sel, hidden)
      {
        RowsStep(before, s.name, s.questions, j, sel, hidden);
        if Exported(sel, s.questions[j]) {
          rows := rows + [RowOf(Entry(s.name, s.questions[j]), hidden)];
        }
        j := j + 1;
      }
      assert s.questions[..j] == s.questions;
      EntriesAppend(sections, i);
      i := i + 1;
    }
    assert sections[..i] == sections;
  }

  /** With nothing selected every question is exported, in document order. */
  lemma ExportAllWhenNothingSelected(es: seq<Entry>, hidden: bool)
    ensures Chosen(es, {}) == es
    ensures Rows(es, {}, hidden) == RowsOf(es, hidden)
  {
    ChosenAll(es);
  }

  lemma {:induction false} ChosenAll(es: seq<Entry>)
    ensures Chosen(es, {}) == es
  {
    if |es| > 0 {
      var n := |es| - 1;
      ChosenAll(es[..n]);
      assert Exported({}, es[n].question);
      assert Chosen(es, {}) == es[..n] + [es[n]];
      assert es[..n] + [es[n]] == es;
    }
  }

  function Elements(p: seq<nat>): set<nat> {
    set x | x in p
  }

  /** An ascending sequence has as many distinct elements as entries. */
  lemma {:induction false} ElementsCount(p: seq<nat>)
    requires forall i, j :: 0 <= i < j < |p| ==> p[i] < p[j]
    ensures |Elements(p)| == |p|
  {
    if |p| > 0 {
      var rest := p[1..];
      ElementsCount(rest);
      assert Elements(p) == Elements(rest) + {p[0]} by {
        assert p == [p[0]] + rest;
      }
      assert p[0] !in Elements(rest);
    }
  }

  /** With a non-empty selection over a well-numbered list, exactly the
      questions whose id is selected are exported, in document order, and
      there are as many rows as selected ids within the list. */
  lemma ExportSelected(sections: seq<Section>, sel: set<nat>, hidden: bool)
    requires WellNumbered(sections) && sel != {}
    ensures var es := Entries(sections);
      var p := Picked(es, sel);
      var rows := Rows(es, sel, hidden);
      && (forall i, j :: 0 <= i < j < |p| ==> p[i] < p[j])
      && (forall i :: 0 <= i < |p| ==> p[i] < |es| && p[i] in sel)
      && (forall k :: 0 <= k < |es| && k in sel ==> k in p)
      && |rows| == |p|
      && (forall i :: 0 <= i < |p| ==> rows[i] == RowOf(es[p[i]], hidden))
      && |rows| == |SelectedBelow(sel, |es|)|
  {
    var es := Entries(sections);
    var p := Picked(es, sel);
    ChosenArePicked(es, sel);
    ElementsCount(p);
    assert Elements(p) == SelectedBelow(sel, |es|);
  }

  /** The selected ids below `n`. */
  function SelectedBelow(sel: set<nat>, n: nat): set<nat> {
    set k | k in sel && k < n
  }

  /** When the selection holds only displayed ids, a non-empty selection
      exports one row per selected id. */
  lemma ExportCountsSelection(sections: seq<Section>, sel: set<nat>, hidden: bool)
    requires WellNumbered(sections) && sel != {}
    requires forall k :: k in sel ==> k < Total(sections)
    ensures |Rows(Entries(sections), sel, hidden)| == |sel|
  {
    ExportSelected(sections, sel, hidden);
    assert SelectedBelow(sel, |Entries(sections)|) == sel;
  }

  // ----- the base file name -----

  /** The clock reading taken at export time: month 1-12, as displayed. */
  datatype Clock = Clock(year: nat, month: nat, day: nat, hour: nat, minute: nat)

  predicate ValidClock(c: Clock) {
    1000 <= c.year <= 9999 && 1 <= c.month <= 12 && 1 <= c.day <= 31 && c.hour < 24 && c.minute < 60
  }

  /** The title part: the custom title, else the page title element's text
      (when the element exists), else the default; a blank choice falls back
      to the default. */
  function TitleChoice(customTitle: string, pageTitle: Option<string>): (t: string)
    ensures !AllSpace(t)
    ensures !AllSpace(customTitle) ==> t == customTitle
    ensures customTitle == "" && pageTitle.Some? && !AllSpace(pageTitle.value) ==> t == pageTitle.value
    ensures t != DefaultTitle ==> t == customTitle || (customTitle == "" && pageTitle == Some(t))
  {
    var chosen := if customTitle != "" then customTitle else if pageTitle.Some? then pageTitle.value else DefaultTitle;
    assert !IsSpace(DefaultTitle[0]);
    if chosen == "" || Trim(chosen) == "" then DefaultTitle else chosen
  }

  /** `YYYYMMDD_HHMM`, each field after the year zero-padded to two digits. */
  function Stamp(c: Clock): string {
    NatToString(c.year) + Pad2(c.month) + Pad2(c.day) + "_" + Pad2(c.hour) + Pad2(c.minute)
  }

  /** `_已选N题` when some but not all displayed questions are selected. */
  function SelectionSuffix(selected: nat, displayed: nat): (r: string)
    ensures r == "" <==> !(0 < selected < displayed)
    ensures r != "" ==>
      && |r| >= 4 && r[..3] == "_已选" && r[|r| - 1] == '题'
      && AllDigits(r[3..|r| - 1]) && DigitsValue(r[3..|r| - 1]) == selected
  {
    if 0 < selected < displayed then
      var n := NatToString(selected);
      NatToStringValue(selected);
      var r := "_已选" + n + "题";
      assert r[3..|r| - 1] == n;
      r
    else ""
  }

  /** The base file name (without extension). */
  function BaseFilename(customTitle: string, pageTitle: Option<string>, includeTimestamp: bool,
                        now: Clock, selected: nat, displayed: nat): (r: string)
    ensures StartsWith(r, TitleChoice(customTitle, pageTitle))
    ensures EndsWith(r, SelectionSuffix(selected, displayed))
    ensures !includeTimestamp ==> r == TitleChoice(customTitle, pageTitle) + SelectionSuffix(selected, displayed)
  {
    var t := TitleChoice(customTitle, pageTitle);
    var mid := if includeTimestamp then "_" + Stamp(now) else "";
    var tail := SelectionSuffix(selected, displayed);
    Framed(t, mid, tail);
    assert includeTimestamp || t + mid == t;
    t + mid + tail
  }

  /** Reads a clock back from the last thirteen characters of a name. */
  function ParseStamp(s: string): Option<Clock> {
    if |s| < 13 then None
    else
      var t := s[|s| - 13..];
      if AllDigits(t[..8]) && t[8] == '_' && AllDigits(t[9..]) then
        Some(Clock(DigitsValue(t[..4]), DigitsValue(t[4..6]), DigitsValue(t[6..8]),
                   DigitsValue(t[9..11]), DigitsValue(t[11..])))
      else None
  }

  lemma FourDigitYear(y: nat)
    requires 1000 <= y <= 9999
    ensures |NatToString(y)| == 4
  {
    var a := y / 10;
    var b := a / 10;
    var c := b / 10;
    assert 100 <= a <= 999 && 10 <= b <= 99 && 1 <= c <= 9;
    assert |NatToString(c)| == 1;
    assert |NatToString(b)| == 2;
    assert |NatToString(a)| == 3;
  }

  /** The time stamp is a lossless encoding of a valid clock. */
  lemma StampRoundTrip(c: Clock)
    requires ValidClock(c)
    ensures |Stamp(c)| == 13 && ParseStamp(Stamp(c)) == Some(c)
  {
    var y, mo, d, h, mi := NatToString(c.year), Pad2(c.month), Pad2(c.day), Pad2(c.hour), Pad2(c.minute);
    FourDigitYear(c.year);
    NatToStringValue(c.year);
    Pad2Value(c.month);
    Pad2Value(c.day);
    Pad2Value(c.hour);
    Pad2Value(c.minute);
    StampLayout(y, mo, d, h, mi);
    ParseFields(Stamp(c));
  }

  /** Where each field sits in a stamp. */
  lemma StampLayout(y: string, mo: string, d: string, h: string, mi: string)
    requires |y| == 4 && |mo| == 2 && |d| == 2 && |h| == 2 && |mi| == 2
    ensures var s := y + mo + d + "_" + h + mi;
      && |s| == 13 && s[8] == '_'
      && s[..4] == y && s[4..6] == mo && s[6..8] == d && s[9..11] == h && s[11..] == mi
  {
    var s := y + mo + d + "_" + h + mi;
    var date := y + mo + d;
    var time := h + mi;
    assert s == date + "_" + time;
    assert date[..4] == y && date[4..6] == mo && date[6..8] == d;
    assert time[..2] == h && time[2..] == mi;
    assert s[..4] == date[..4] && s[4..6] == date[4..6] && s[6..8] == date[6..8];
    assert s[9..11] == time[..2] && s[11..] == time[2..];
  }

  /** Thirteen characters holding digits around an underscore at the
      stamp's positions read back field by field. */
  lemma ParseFields(s: string)
    requires |s| == 13 && s[8] == '_'
    requires AllDigits(s[..4]) && AllDigits(s[4..6]) && AllDigits(s[6..8]) && AllDigits(s[9..11]) && AllDigits(s[11..])
    ensures ParseStamp(s) == Some(Clock(DigitsValue(s[..4]), DigitsValue(s[4..6]), DigitsValue(s[6..8]), DigitsValue(s[9..11]), DigitsValue(s[11..])))
  {
    assert s[|s| - 13..] == s;
    assert AllDigits(s[..8]) by {
      forall i | 0 <= i < 8 ensures IsDigit(s[..8][i]) {
        if i < 4 {
          assert s[..8][i] == s[..4][i];
        } else if i < 6 {
          assert s[..8][i] == s[4..6][i - 4];
        } else {
          assert s[..8][i] == s[6..8][i - 6];
        }
      }
    }
    assert AllDigits(s[9..]) by {
      forall i | 0 <= i < 4 ensures IsDigit(s[9..][i]) {
        if i < 2 {
          assert s[9..][i] == s[9..11][i];
        } else {
          assert s[9..][i] == s[11..][i - 2];
        }
      }
    }
  }

  /** With a time stamp the name is the title, an underscore, the stamp and
      the selection suffix, in that order: the clock is read back from the
      characters just before the suffix, which is absent unless only part of
      the questions is selected. */
  lemma FilenameStampRoundTrip(customTitle: string, pageTitle: Option<string>, now: Clock, selected: nat, displayed: nat)
    requires ValidClock(now)
    ensures var r := BaseFilename(customTitle, pageTitle, true, now, selected, displayed);
      var t := TitleChoice(customTitle, pageTitle);
      var tail := SelectionSuffix(selected, displayed);
      && |r| == |t| + 14 + |tail|
      && r[|t|] == '_'
      && ParseStamp(r[..|r| - |tail|]) == Some(now)
  {
    StampedFilename(customTitle, pageTitle, now, selected, displayed);
    StampRoundTrip(now);
    StampBeforeTail(TitleChoice(customTitle, pageTitle), Stamp(now), SelectionSuffix(selected, displayed));
  }

  /** The parts a stamped file name is made of. */
  lemma StampedFilename(customTitle: string, pageTitle: Option<string>, now: Clock, selected: nat, displayed: nat)
    ensures BaseFilename(customTitle, pageTitle, true, now, selected, displayed)
         == TitleChoice(customTitle, pageTitle) + "_" + Stamp(now) + SelectionSuffix(selected, displayed)
  {
    var t, s, tail := TitleChoice(customTitle, pageTitle), Stamp(now), SelectionSuffix(selected, displayed);
    assert BaseFilename(customTitle, pageTitle, true, now, selected, displayed) == t + ("_" + s) + tail;
    assert t + ("_" + s) == t + "_" + s;
  }

  /** A thirteen-character stamp between a title and a tail is what
      `ParseStamp` reads once the tail is cut off. */
  lemma StampBeforeTail(t: string, s: string, tail: string)
    requires |s| == 13
    ensures var r := t + "_" + s + tail;
      && |r| == |t| + 14 + |tail| && r[|t|] == '_'
      && ParseStamp(r[..|r| - |tail|]) == ParseStamp(s)
  {
    var r := t + "_" + s + tail;
    var head := r[..|r| - |tail|];
    assert head == t + "_" + s;
    assert head[|head| - 13..] == s;
  }

  // ----- question titles -----

  /** The end of the run of white space starting at `i`. */
  function SkipSpaces(s: string, i: nat): (j: nat)
    requires i <= |s|
    ensures i <= j <= |s| && (j == |s| || !IsSpace(s[j]))
    ensures forall k :: i <= k < j ==> IsSpace(s[k])
    decreases |s| - i
  {
    if i < |s| && IsSpace(s[i]) then SkipSpaces(s, i + 1) else i
  }

  /** The end of the run of digits starting at `i`. */
  function SkipDigits(s: string, i: nat): (j: nat)
    requires i <= |s|
    ensures i <= j <= |s| && (j == |s| || !IsDigit(s[j]))
    ensures forall k :: i <= k < j ==> IsDigit(s[k])
    decreases |s| - i
  {
    if i < |s| && IsDigit(s[i]) then SkipDigits(s, i + 1) else i
  }

  /** `\d+[\s.、．]` at `i`. The digit run cannot give back a character to
      the separator class, so its longest run is the only candidate. */
  predicate DigitsThenSeparator(s: string, i: nat)
    requires i <= |s|
  {
    var j := SkipDigits(s, i);
    i < j < |s| && (IsSpace(s[j]) || s[j] == '.' || s[j] == '、' || s[j] == '．')
  }

  /** `[（(]\s*\d+\s*[)）]` at `i`. */
  predicate ParenthesisedNumber(s: string, i: nat)
    requires i <= |s|
  {
    i < |s| && (s[i] == '（' || s[i] == '(') &&
    var a := SkipSpaces(s, i + 1);
    var b := SkipDigits(s, a);
    var c := SkipSpaces(s, b);
    a < b && c < |s| && (s[c] == ')' || s[c] == '）')
  }

  /** `第\s*\d+\s*[题問问]` at `i`. */
  predicate OrdinalNumber(s: string, i: nat)
    requires i <= |s|
  {
    i < |s| && s[i] == '第' &&
    var a := SkipSpaces(s, i + 1);
    var b := SkipDigits(s, a);
    var c := SkipSpaces(s, b);
    a < b && c < |s| && (s[c] == '题' || s[c] == '問' || s[c] == '问')
  }

  /** The title already carries a number, after any leading white space. */
  predicate HasNumbering(s: string) {
    var i := SkipSpaces(s, 0);
    DigitsThenSeparator(s, i) || ParenthesisedNumber(s, i) || OrdinalNumber(s, i)
  }

  /** `"{n}. "`, the number the renderers put before an unnumbered title. */
  function NumberLabel(n: nat): string {
    NatToString(n) + ". "
  }

  /** The tag followed by anything is numbered. */
  lemma LabelIsNumbering(n: nat, t: string)
    ensures HasNumbering(NumberLabel(n) + t)
  {
    var d := NatToString(n);
    var s := NumberLabel(n) + t;
    assert s[0] == d[0];
    assert SkipSpaces(s, 0) == 0;
    assert forall k :: 0 <= k < |d| ==> IsDigit(s[k]);
    assert s[|d|] == '.';
    SkipDigitsFrom(s, 0, |d|);
  }

  /** A run of digits ended by a non-digit is what `SkipDigits` finds. */
  lemma {:induction false} SkipDigitsFrom(s: string, i: nat, j: nat)
    requires i <= j <= |s|
    requires forall k :: i <= k < j ==> IsDigit(s[k])
    requires j == |s| || !IsDigit(s[j])
    ensures SkipDigits(s, i) == j
    decreases j - i
  {
    if i < j {
      SkipDigitsFrom(s, i + 1, j);
    }
  }

  /** The title of the `index`-th question of a group: an empty title
      becomes the bare tag; otherwise the trimmed title, behind the tag
      when it is not numbered already. */
  function ProcessTitle(title: string, index: nat): (r: string)
    ensures HasNumbering(r)
    ensures title == "" ==> r == NumberLabel(index + 1)
    ensures title != "" && HasNumbering(Trim(title)) ==> r == Trim(title)
    ensures title != "" && !HasNumbering(Trim(title)) ==> r == NumberLabel(index + 1) + Trim(title)
  {
    if title == "" then
      LabelIsNumbering(index + 1, "");
      assert NumberLabel(index + 1) + "" == NumberLabel(index + 1);
      NumberLabel(index + 1)
    else
      var t := Trim(title);
      if HasNumbering(t) then t
      else
        LabelIsNumbering(index + 1, t);
        NumberLabel(index + 1) + t
  }

  /** Processing an already processed, non-blank title changes nothing,
      whatever index the second pass uses. */
  lemma ProcessTitleIdempotent(title: string, index: nat, other: nat)
    requires !AllSpace(title)
    ensures ProcessTitle(ProcessTitle(title, index), other) == ProcessTitle(title, index)
  {
    var t := Trim(title);
    var r := ProcessTitle(title, index);
    TrimIdempotent(title);
    if !HasNumbering(t) {
      assert r == NumberLabel(index + 1) + t;
      LabelledTitleTrimmed(index + 1, t);
      TrimOfTrimmed(r);
    }
  }

  /** A number label before a non-empty trimmed title leaves it trimmed. */
  lemma LabelledTitleTrimmed(n: nat, t: string)
    requires Trimmed(t) && t != []
    ensures Trimmed(NumberLabel(n) + t)
  {
    var d := NatToString(n);
    var s := NumberLabel(n) + t;
    assert IsDigit(d[0]);
    assert s[0] == d[0];
    assert s[|s| - 1] == t[|t| - 1];
  }

  // ----- answer labels -----

  /** The labels an answer text may start with, each followed by a half- or
      full-width colon; they are tried in this order. */
  const AnswerLabels: seq<string> := ["答案", "正确答案", "解析"]

  predicate IsColon(c: char) {
    c == ':' || c == '：'
  }

  /** `t` starts with `tag` and a colon. */
  predicate Labelled(t: string, tag: string) {
    |tag| < |t| && t[..|tag|] == tag && IsColon(t[|tag|])
  }

  /** Some answer label and a colon start `t`. */
  predicate AnyLabel(t: string) {
    Labelled(t, AnswerLabels[0]) || Labelled(t, AnswerLabels[1]) || Labelled(t, AnswerLabels[2])
  }

  /** `r` is what is left of `t` once label `k`, its colon and the white
      space after it are cut off. */
  predicate CutAfter(t: string, r: string, k: nat)
    requires k < |AnswerLabels|
  {
    && Labelled(t, AnswerLabels[k])
    && |AnswerLabels[k]| + 1 + |r| <= |t|
    && t[|t| - |r|..] == r
    && AllSpace(t[|AnswerLabels[k]| + 1..|t| - |r|])
  }

  /** Label `k`, its colon and the white space after it cut off a trimmed text. */
  function Cut(t: string, k: nat): (r: string)
    requires k < |AnswerLabels| && Labelled(t, AnswerLabels[k]) && Trimmed(t)
    ensures CutAfter(t, r, k) && |r| < |t|
    ensures Trimmed(r) && EndsWith(t, r)
  {
    var j := SkipSpaces(t, |AnswerLabels[k]| + 1);
    var r := t[j..];
    assert t[|t| - |r|..] == r;
    r
  }

  /** One leading label removed from a trimmed text, the first that matches. */
  function StripLabel(t: string): (r: string)
    requires Trimmed(t)
    ensures Trimmed(r) && EndsWith(t, r)
    ensures !AnyLabel(t) ==> r == t
    ensures AnyLabel(t) ==> |r| < |t| && (CutAfter(t, r, 0) || CutAfter(t, r, 1) || CutAfter(t, r, 2))
  {
    if Labelled(t, AnswerLabels[0]) then Cut(t, 0)
    else if Labelled(t, AnswerLabels[1]) then Cut(t, 1)
    else if Labelled(t, AnswerLabels[2]) then Cut(t, 2)
    else t
  }

  /** The answer as the renderers show it: trimmed, and without one leading
      label. Empty stays empty. */
  function ProcessAnswer(a: string): (r: string)
    ensures a == "" ==> r == ""
    ensures Trimmed(r) && EndsWith(Trim(a), r)
    ensures a != "" ==> r == StripLabel(Trim(a))
    ensures !AnyLabel(Trim(a)) ==> r == Trim(a)
    ensures AnyLabel(Trim(a)) ==> |r| < |Trim(a)|
  {
    if a == "" then "" else StripLabel(Trim(a))
  }

  /** A label and colon in front of a trimmed answer are removed again. */
  lemma ProcessAnswerStripsLabel(k: nat, colon: char, x: string)
    requires k < |AnswerLabels| && IsColon(colon)
    requires Trimmed(x)
    ensures ProcessAnswer(AnswerLabels[k] + [colon] + x) == x
  {
    LabelledTrimmed(k, colon, x);
    StripLabelOf(k, colon, x);
  }

  lemma StripLabelOf(k: nat, colon: char, x: string)
    requires k < |AnswerLabels| && IsColon(colon)
    requires Trimmed(x)
    ensures Trimmed(AnswerLabels[k] + [colon] + x)
    ensures StripLabel(AnswerLabels[k] + [colon] + x) == x
  {
    var tag := AnswerLabels[k];
    var a := tag + [colon] + x;
    LabelledIsTrimmed(k, colon, x);
    assert a[..|tag|] == tag;
    assert Labelled(a, tag);
    OtherLabelsDiffer(k, colon, x);
    var r := StripLabel(a);
    assert CutAfter(a, r, k);
    SkipAfterLabel(k, colon, x, r);
  }

  lemma LabelsStartSolid()
    ensures forall k :: 0 <= k < |AnswerLabels| ==> |AnswerLabels[k]| >= 2 && !IsSpace(AnswerLabels[k][0])
  {
  }

  lemma LabelledTrimmed(k: nat, colon: char, x: string)
    requires k < |AnswerLabels| && IsColon(colon)
    requires Trimmed(x)
    ensures Trim(AnswerLabels[k] + [colon] + x) == AnswerLabels[k] + [colon] + x
  {
    LabelledIsTrimmed(k, colon, x);
    TrimOfTrimmed(AnswerLabels[k] + [colon] + x);
  }

  lemma LabelledIsTrimmed(k: nat, colon: char, x: string)
    requires k < |AnswerLabels| && IsColon(colon)
    requires Trimmed(x)
    ensures Trimmed(AnswerLabels[k] + [colon] + x)
  {
    var tag := AnswerLabels[k];
    LabelsStartSolid();
    var a := tag + [colon] + x;
    assert Trimmed(a) by {
      assert a[0] == tag[0];
      assert !IsSpace(colon);
      if x != [] {
        assert a[|a| - 1] == x[|x| - 1];
      }
    }
  }

  /** Cutting after the label at the right place leaves exactly `x`, since `x`
      does not start with white space. */
  lemma SkipAfterLabel(k: nat, colon: char, x: string, r: string)
    requires k < |AnswerLabels| && IsColon(colon)
    requires Trimmed(x)
    requires CutAfter(AnswerLabels[k] + [colon] + x, r, k)
    ensures r == x
  {
    var n := |AnswerLabels[k]| + 1;
    var a := AnswerLabels[k] + [colon] + x;
    assert a[n..] == x;
    if n < |a| {
      assert a[n] == x[0];
    }
    EmptyGap(a, n, |a| - |r|);
  }

  /** A run of white space that starts at a non-space character is empty. */
  lemma EmptyGap(a: string, i: nat, j: nat)
    requires i <= j <= |a| && AllSpace(a[i..j])
    requires i == |a| || !IsSpace(a[i])
    ensures i == j
  {
  }

  /** No other label fits a text that starts with label `k`. */
  lemma OtherLabelsDiffer(k: nat, colon: char, x: string)
    requires k < |AnswerLabels| && IsColon(colon)
    ensures forall m :: 0 <= m < |AnswerLabels| && m != k ==> !Labelled(AnswerLabels[k] + [colon] + x, AnswerLabels[m])
  {
    var a := AnswerLabels[k] + [colon] + x;
    forall m | 0 <= m < |AnswerLabels| && m != k
      ensures !Labelled(a, AnswerLabels[m])
    {
      assert a[0] == AnswerLabels[k][0];
    }
  }
}

=== FILE: extraction.dfy ===
/** Extraction of the question model from the quiz page, over an abstract
    view of the page: a section node per `.mark_item`, a question node per
    `.questionLi`, and for each field the `innerText` of the element the
    selector finds (`None` when no element matches). The image resolver's
    page load is an oracle; the order in which image records arrive is
    handled by `SettledImagesWellFormed`. */
module Extraction {
  import opened Wrappers
  import opened Text
  import opened Model

  const UnnamedType := "未命名题型"
  const QuestionNotFound := "未找到题目"
  const DefaultAlt := "题目图片"

  /** An `img` element: its resolved `src` property, `alt` and natural size. */
  datatype ImgNode = ImgNode(src: string, alt: string, naturalWidth: nat, naturalHeight: nat)

  /** An element matched by the image-container selectors: either an `img`
      itself (`.mc img`, `.q_content img`) or a box holding `img` elements
      (`.imag_box`, `.mark_img`, `.imgBox`). */
  datatype Container = ImgContainer(img: ImgNode) | BoxContainer(imgs: seq<ImgNode>)

  datatype QuestionNode = QuestionNode(
    name: Option<string>,               // .mark_name
    letterItems: Option<seq<string>>,   // li texts of .mark_letter
    green: Option<string>,              // .mark_answer .colorGreen (correct answer)
    deep: Option<string>,               // .mark_answer .colorDeep (user's answer)
    markExplain: Option<string>,        // .mark_explain
    explanationDiv: Option<string>,     // .explanation
    qAnalysis: Option<string>,          // .q_analysis
    analyze: Option<string>,            // .analyze
    imgs: seq<ImgNode>,                 // every descendant img, document order
    containers: seq<Container>)         // image-container matches, document order

  datatype SectionNode = SectionNode(typeTitle: Option<string>, questions: seq<QuestionNode>)

  /** `el?.innerText || d`: the text when an element exists with non-empty text. */
  function TextOr(t: Option<string>, d: string): (r: string)
    ensures t.Some? && t.value != "" ==> r == t.value
    ensures (t.None? || t.value == "") ==> r == d
  {
    if t.Some? && t.value != "" then t.value else d
  }

  // ----- image discovery (findAllImages) -----

  predicate HasSrc(list: seq<ImgNode>, src: string) {
    exists k :: 0 <= k < |list| && list[k].src == src
  }

  /** Pass 1: every descendant `img` whose `src` is non-empty, no de-duplication. */
  function DirectImages(imgs: seq<ImgNode>): (r: seq<ImgNode>)
    ensures forall k :: 0 <= k < |r| ==> r[k].src != "" && r[k] in imgs
    ensures forall x :: x in imgs && x.src != "" ==> x in r
  {
    if |imgs| == 0 then []
    else (if imgs[0].src != "" then [imgs[0]] else []) + DirectImages(imgs[1..])
  }

  /** Pass 2's test for one image: append it unless its src is empty or
      already listed. */
  function AddIfNew(list: seq<ImgNode>, img: ImgNode): seq<ImgNode> {
    if img.src != "" && !HasSrc(list, img.src) then list + [img] else list
  }

  function AddAll(list: seq<ImgNode>, imgs: seq<ImgNode>): seq<ImgNode>
    decreases |imgs|
  {
    if |imgs| == 0 then list else AddAll(AddIfNew(list, imgs[0]), imgs[1..])
  }

  /** Pass 2 over the container matches, in order. */
  function AddContainers(list: seq<ImgNode>, cs: seq<Container>): seq<ImgNode>
    decreases |cs|
  {
    if |cs| == 0 then list
    else
      var next := match cs[0]
        case ImgContainer(img) => AddIfNew(list, img)
        case BoxContainer(imgs) => AddAll(list, imgs);
      AddContainers(next, cs[1..])
  }

  function FindAllImages(q: QuestionNode): seq<ImgNode> {
    AddContainers(DirectImages(q.imgs), q.containers)
  }

  /** Every container match is inside the question, so its images are among
      the question's descendant images. */
  predicate ContainersInside(q: QuestionNode) {
    forall c :: c in q.containers ==>
      match c
      case ImgContainer(img) => img in q.imgs
      case BoxContainer(imgs) => forall x :: x in imgs ==> x in q.imgs
  }

  lemma {:induction false} AddAllKeeps(list: seq<ImgNode>, imgs: seq<ImgNode>, all: seq<ImgNode>)
    requires forall x :: x in all && x.src != "" ==> x in list
    requires forall x :: x in imgs ==> x in all
    ensures AddAll(list, imgs) == list
    decreases |imgs|
  {
    if |imgs| > 0 {
      var x := imgs[0];
      if x.src != "" {
        var k :| 0 <= k < |list| && list[k] == x;
        assert HasSrc(list, x.src);
      }
      AddAllKeeps(list, imgs[1..], all);
    }
  }

  lemma {:induction false} AddContainersKeeps(list: seq<ImgNode>, cs: seq<Container>, q: QuestionNode)
    requires forall x :: x in q.imgs && x.src != "" ==> x in list
    requires ContainersInside(q)
    requires forall c :: c in cs ==> c in q.containers
    ensures AddContainers(list, cs) == list
    decreases |cs|
  {
    if |cs| > 0 {
      assert cs[0] in q.containers;
      match cs[0] {
        case ImgContainer(img) =>
          if img.src != "" {
            var k :| 0 <= k < |list| && list[k] == img;
            assert HasSrc(list, img.src);
          }
        case BoxContainer(imgs) =>
          AddAllKeeps(list, imgs, q.imgs);
      }
      assert forall c :: c in cs[1..] ==> c in cs;
      AddContainersKeeps(list, cs[1..], q);
    }
  }

  /** The container pass never adds anything: every image it could add was
      already found, with the same src, by the direct pass. */
  lemma ContainerPassAddsNothing(q: QuestionNode)
    requires ContainersInside(q)
    ensures FindAllImages(q) == DirectImages(q.imgs)
  {
    AddContainersKeeps(DirectImages(q.imgs), q.containers, q);
  }

  // ----- image resolver (getImageAsBase64) -----

  /** What the page does with a URL handed to an offscreen image: it loads and
      re-encodes it to a data URL, or it fails (load error or canvas error). */
  datatype LoadOutcome = Loaded(dataUrl: string) | LoadFailed

  /** `/^(http|https|data)/i`. */
  predicate SchemeAccepted(url: string) {
    StartsWithIgnoreCase(url, "http") || StartsWithIgnoreCase(url, "https") || StartsWithIgnoreCase(url, "data")
  }

  /** The resolver's guard: non-empty, non-blank, accepted scheme. */
  predicate GuardPasses(url: string) {
    url != "" && Trim(url) != "" && SchemeAccepted(url)
  }

  /** The normalisation of scheme-relative and root-relative URLs. */
  function SafeUrl(url: string, protocol: string, origin: string): string {
    if StartsWith(url, "//") then protocol + url
    else if StartsWith(url, "/") then origin + url
    else url
  }

  /** Behind the guard the normalisation is the identity: a URL the scheme
      test accepts starts with a letter, never with '/'. */
  lemma NormalisationUnreachable(url: string, protocol: string, origin: string)
    requires SchemeAccepted(url)
    ensures SafeUrl(url, protocol, origin) == url
  {
    AcceptedFirstChar(url);
    NotSlash(url);
  }

  lemma NotSlash(url: string)
    requires |url| > 0 && url[0] in {'h', 'H', 'd', 'D'}
    ensures !StartsWith(url, "/") && !StartsWith(url, "//")
  {
    assert url[..1][0] == url[0];
    if |url| >= 2 {
      assert url[..2][0] == url[0];
    }
  }

  /** An accepted URL starts with one of h, H, d, D. */
  lemma AcceptedFirstChar(url: string)
    requires SchemeAccepted(url)
    ensures |url| > 0 && url[0] in {'h', 'H', 'd', 'D'}
  {
    if StartsWithIgnoreCase(url, "data") {
      assert LowerAscii(url[0]) == LowerAscii("data"[0]);
    } else {
      assert LowerAscii(url[0]) == 'h';
    }
  }

  /** The value the resolver settles with: `None` for a rejection (recorded
      as `data: null`), else the data URL, or the original URL when it is
      already a data image or when loading fails. */
  function Resolve(url: string, load: string -> LoadOutcome, protocol: string, origin: string): (r: Option<string>)
    ensures r.None? <==> !SchemeAccepted(url)
    ensures SchemeAccepted(url) && StartsWith(url, "data:image") ==> r == Some(url)
    ensures SchemeAccepted(url) && !StartsWith(url, "data:image") && load(url).LoadFailed? ==> r == Some(url)
    ensures SchemeAccepted(url) && !StartsWith(url, "data:image") && load(url).Loaded? ==> r == Some(load(url).dataUrl)
  {
    if !GuardPasses(url) then None
    else if StartsWith(url, "data:image") then Some(url)
    else
      NormalisationUnreachable(url, protocol, origin);
      match load(SafeUrl(url, protocol, origin))
      case Loaded(d) => Some(d)
      case LoadFailed => Some(url)
  }

  /** Every URL the scheme test accepts is non-empty and not blank, so the
      first two tests of the guard never decide anything. */
  lemma GuardIsSchemeTest(url: string)
    ensures GuardPasses(url) <==> SchemeAccepted(url)
  {
    if SchemeAccepted(url) {
      AcceptedFirstChar(url);
      assert !IsSpace(url[0]);
      assert !AllSpace(url);
    }
  }

  // ----- one question -----

  /** The images of one question that get a resolver call: the non-empty
      srcs of `FindAllImages`, first occurrence of each src only. */
  function Dedup(found: seq<ImgNode>, seen: set<string>): (r: seq<ImgNode>)
    ensures forall k :: 0 <= k < |r| ==> r[k].src != "" && r[k].src !in seen && r[k] in found
    ensures forall i, j :: 0 <= i < j < |r| ==> r[i].src != r[j].src
    ensures forall x :: x in found && x.src != "" && x.src !in seen ==> HasSrc(r, x.src)
    decreases |found|
  {
    if |found| == 0 then []
    else
      var img := found[0];
      if img.src != "" && img.src !in seen then
        var rest := Dedup(found[1..], seen + {img.src});
        HasSrcCons(img, rest);
        [img] + rest
      else Dedup(found[1..], seen)
  }

  lemma HasSrcCons(img: ImgNode, rest: seq<ImgNode>)
    ensures HasSrc([img] + rest, img.src)
    ensures forall src :: HasSrc(rest, src) ==> HasSrc([img] + rest, src)
  {
    assert ([img] + rest)[0] == img;
    forall src | HasSrc(rest, src)
      ensures HasSrc([img] + rest, src)
    {
      var k :| 0 <= k < |rest| && rest[k].src == src;
      assert ([img] + rest)[k + 1] == rest[k];
    }
  }

  /** The record pushed once the resolver settles for `img`. */
  function Record(img: ImgNode, load: string -> LoadOutcome, protocol: string, origin: string): Image {
    Image(img.src, TextOr(Some(img.alt), DefaultAlt), Resolve(img.src, load, protocol, origin),
          img.naturalWidth, img.naturalHeight)
  }

  function Records(imgs: seq<ImgNode>, load: string -> LoadOutcome, protocol: string, origin: string): (r: seq<Image>)
    ensures |r| == |imgs|
    ensures forall k :: 0 <= k < |r| ==> r[k] == Record(imgs[k], load, protocol, origin)
  {
    if |imgs| == 0 then [] else [Record(imgs[0], load, protocol, origin)] + Records(imgs[1..], load, protocol, origin)
  }

  /** The option texts: `li` items whose text is non-empty, in order. */
  function OptionTexts(items: seq<string>): (r: seq<string>)
    ensures forall k :: 0 <= k < |r| ==> r[k] != "" && r[k] in items
    ensures forall x :: x in items && x != "" ==> x in r
    ensures (forall k :: 0 <= k < |items| ==> items[k] != "") ==> r == items
  {
    if |items| == 0 then []
    else
      assert forall k :: 1 <= k < |items| ==> items[1..][k - 1] == items[k];
      (if items[0] != "" then [items[0]] else []) + OptionTexts(items[1..])
  }

  /** The options of consecutive item lists are theirs, one after the
      other: order and repeated options are kept. */
  lemma {:induction false} OptionTextsAppend(a: seq<string>, b: seq<string>)
    ensures OptionTexts(a + b) == OptionTexts(a) + OptionTexts(b)
  {
    if |a| > 0 {
      assert (a + b)[0] == a[0];
      assert (a + b)[1..] == a[1..] + b;
      OptionTextsAppend(a[1..], b);
      var head := if a[0] != "" then [a[0]] else [];
      assert OptionTexts(a + b) == head + OptionTexts(a[1..] + b);
      assert OptionTexts(a) == head + OptionTexts(a[1..]);
    } else {
      assert a + b == b;
    }
  }

  /** The first non-empty explanation among the four selectors, in order. */
  function Explanation(q: QuestionNode): string {
    TextOr(q.markExplain, TextOr(q.explanationDiv, TextOr(q.qAnalysis, TextOr(q.analyze, ""))))
  }

  /** The images of a question as discovered, before arrival order is applied. */
  function QuestionImages(q: QuestionNode, load: string -> LoadOutcome, protocol: string, origin: string): seq<Image> {
    Records(Dedup(FindAllImages(q), {}), load, protocol, origin)
  }

  function ExtractQuestion(q: QuestionNode, load: string -> LoadOutcome, protocol: string, origin: string): Question {
    Question(
      None,
      TextOr(q.name, QuestionNotFound),
      if q.letterItems.Some? then OptionTexts(q.letterItems.value) else [],
      TextOr(q.deep, ""),
      TextOr(q.green, ""),
      Explanation(q),
      QuestionImages(q, load, protocol, origin),
      None)
  }

  predicate DistinctSrcs(images: seq<Image>) {
    forall i, j :: 0 <= i < j < |images| ==> images[i].src != images[j].src
  }

  /** Every record comes from a found image, and every found image with a
      non-empty src has a record. */
  predicate CoversFound(images: seq<Image>, found: seq<ImgNode>) {
    && (forall k :: 0 <= k < |images| ==> images[k].src != "" && HasSrc(found, images[k].src))
    && (forall x :: x in found && x.src != "" ==> exists k :: 0 <= k < |images| && images[k].src == x.src)
  }

  /** The alt text is defaulted and `data` is what the resolver settled with:
      absent exactly when the scheme test rejects the src, the original URL
      when loading fails. */
  predicate Resolved(img: Image, load: string -> LoadOutcome) {
    && img.alt != ""
    && (img.data.None? <==> !SchemeAccepted(img.src))
    && (SchemeAccepted(img.src) && !StartsWith(img.src, "data:image") && load(img.src).LoadFailed?
        ==> img.data == Some(img.src))
  }

  /** The image records of a question are well formed relative to its node. */
  predicate ImagesWellFormed(images: seq<Image>, q: QuestionNode, load: string -> LoadOutcome) {
    && DistinctSrcs(images)
    && CoversFound(images, FindAllImages(q))
    && forall k :: 0 <= k < |images| ==> Resolved(images[k], load)
  }

  lemma RecordResolved(img: ImgNode, load: string -> LoadOutcome, protocol: string, origin: string)
    ensures Record(img, load, protocol, origin).src == img.src
    ensures Resolved(Record(img, load, protocol, origin), load)
  {
  }

  lemma RecordsFacts(d: seq<ImgNode>, load: string -> LoadOutcome, protocol: string, origin: string)
    ensures var images := Records(d, load, protocol, origin);
      forall k :: 0 <= k < |images| ==> images[k].src == d[k].src && Resolved(images[k], load)
  {
    var images := Records(d, load, protocol, origin);
    forall k | 0 <= k < |images|
      ensures images[k].src == d[k].src && Resolved(images[k], load)
    {
      RecordResolved(d[k], load, protocol, origin);
    }
  }

  lemma DedupCovers(found: seq<ImgNode>, images: seq<Image>, d: seq<ImgNode>)
    requires forall k :: 0 <= k < |d| ==> d[k].src != "" && d[k] in found
    requires forall i, j :: 0 <= i < j < |d| ==> d[i].src != d[j].src
    requires forall x :: x in found && x.src != "" ==> HasSrc(d, x.src)
    requires |images| == |d| && forall k :: 0 <= k < |images| ==> images[k].src == d[k].src
    ensures DistinctSrcs(images)
    ensures CoversFound(images, found)
  {
    DedupSourcesFound(found, images, d);
    DedupReachesFound(found, images, d);
    SameSrcsDistinct(images, d);
  }

  lemma SameSrcsDistinct(images: seq<Image>, d: seq<ImgNode>)
    requires forall i, j :: 0 <= i < j < |d| ==> d[i].src != d[j].src
    requires |images| == |d| && forall k :: 0 <= k < |images| ==> images[k].src == d[k].src
    ensures DistinctSrcs(images)
  {
  }

  /** Every record's src is a non-empty src of a found image. */
  lemma DedupSourcesFound(found: seq<ImgNode>, images: seq<Image>, d: seq<ImgNode>)
    requires forall k :: 0 <= k < |d| ==> d[k].src != "" && d[k] in found
    requires |images| == |d| && forall k :: 0 <= k < |images| ==> images[k].src == d[k].src
    ensures forall k :: 0 <= k < |images| ==> images[k].src != "" && HasSrc(found, images[k].src)
  {
    forall k | 0 <= k < |images|
      ensures HasSrc(found, images[k].src)
    {
      var i :| 0 <= i < |found| && found[i] == d[k];
    }
  }

  /** Every found image with a non-empty src has a record. */
  lemma DedupReachesFound(found: seq<ImgNode>, images: seq<Image>, d: seq<ImgNode>)
    requires forall x :: x in found && x.src != "" ==> HasSrc(d, x.src)
    requires |images| == |d| && forall k :: 0 <= k < |images| ==> images[k].src == d[k].src
    ensures forall x :: x in found && x.src != "" ==> exists k :: 0 <= k < |images| && images[k].src == x.src
  {
    forall x | x in found && x.src != ""
      ensures exists k :: 0 <= k < |images| && images[k].src == x.src
    {
      var k :| 0 <= k < |d| && d[k].src == x.src;
      assert images[k].src == x.src;
    }
  }

  lemma QuestionImagesWellFormed(q: QuestionNode, load: string -> LoadOutcome, protocol: string, origin: string)
    ensures ImagesWellFormed(QuestionImages(q, load, protocol, origin), q, load)
  {
    var d := Dedup(FindAllImages(q), {});
    RecordsFacts(d, load, protocol, origin);
    DedupCovers(FindAllImages(q), Records(d, load, protocol, origin), d);
  }

  /** Some position of `order` holds `k`. */
  predicate Hits(order: seq<nat>, k: nat) {
    exists i :: 0 <= i < |order| && order[i] == k
  }

  /** Whatever order the resolver calls settle in, the question's record list
      is a permutation of the discovered one and stays well formed. */
  lemma SettledImagesWellFormed(images: seq<Image>, order: seq<nat>, q: QuestionNode, load: string -> LoadOutcome)
    requires ImagesWellFormed(images, q, load)
    requires |order| == |images|
    requires forall i :: 0 <= i < |order| ==> order[i] < |images|
    requires forall i, j :: 0 <= i < j < |order| ==> order[i] != order[j]
    requires forall k :: 0 <= k < |images| ==> Hits(order, k)
    ensures ImagesWellFormed(seq(|order|, i requires 0 <= i < |order| => images[order[i]]), q, load)
  {
    var settled := seq(|order|, i requires 0 <= i < |order| => images[order[i]]);
    var found := FindAllImages(q);
    forall x | x in found && x.src != ""
      ensures exists k :: 0 <= k < |settled| && settled[k].src == x.src
    {
      var m :| 0 <= m < |images| && images[m].src == x.src;
      assert Hits(order, m);
      var i :| 0 <= i < |order| && order[i] == m;
      assert settled[i].src == x.src;
    }
  }

  // ----- the whole page (parseQuestions) -----

  function ExtractQuestions(qs: seq<QuestionNode>, load: string -> LoadOutcome, protocol: string, origin: string): (r: seq<Question>)
    ensures |r| == |qs|
    ensures forall k :: 0 <= k < |qs| ==> r[k] == ExtractQuestion(qs[k], load, protocol, origin)
  {
    if |qs| == 0 then [] else [ExtractQuestion(qs[0], load, protocol, origin)] + ExtractQuestions(qs[1..], load, protocol, origin)
  }

  function ExtractSection(s: SectionNode, load: string -> LoadOutcome, protocol: string, origin: string): Section {
    Section(TextOr(s.typeTitle, UnnamedType), ExtractQuestions(s.questions, load, protocol, origin))
  }

  function ExtractSections(nodes: seq<SectionNode>, load: string -> LoadOutcome, protocol: string, origin: string): (r: seq<Section>)
    ensures |r| == |nodes|
    ensures forall i :: 0 <= i < |nodes| ==> r[i] == ExtractSection(nodes[i], load, protocol, origin)
  {
    if |nodes| == 0 then [] else [ExtractSection(nodes[0], load, protocol, origin)] + ExtractSections(nodes[1..], load, protocol, origin)
  }

  /** The number of resolver calls issued for a list of question nodes. */
  function ImageTasks(qs: seq<QuestionNode>): nat {
    if |qs| == 0 then 0 else |Dedup(FindAllImages(qs[0]), {})| + ImageTasks(qs[1..])
  }

  function PageImageTasks(nodes: seq<SectionNode>): nat {
    if |nodes| == 0 then 0 else ImageTasks(nodes[0].questions) + PageImageTasks(nodes[1..])
  }

  /** No `.mark_item` at all is its own outcome; otherwise the number of
      resolver calls is reported along with the extended model. */
  datatype ParseOutcome = NoContent | Parsed(imageTasks: nat)

  /** `parseQuestions`: sections are appended to the current model (the parse
      button empties it first). With no section node the model is untouched. */
  function ParseQuestions(model: seq<Section>, nodes: seq<SectionNode>, load: string -> LoadOutcome, protocol: string, origin: string): (r: (ParseOutcome, seq<Section>))
    ensures |nodes| == 0 <==> r.0 == NoContent
    ensures |nodes| == 0 ==> r.1 == model
    ensures |r.1| == |model| + |nodes| && r.1[..|model|] == model
    ensures forall i :: 0 <= i < |nodes| ==>
      r.1[|model| + i].name != "" && |r.1[|model| + i].questions| == |nodes[i].questions|
  {
    if |nodes| == 0 then (NoContent, model)
    else (Parsed(PageImageTasks(nodes)), model + ExtractSections(nodes, load, protocol, origin))
  }

  /** The per-field defaults and the image records of every extracted question. */
  lemma ExtractedQuestionFields(q: QuestionNode, load: string -> LoadOutcome, protocol: string, origin: string)
    ensures var e := ExtractQuestion(q, load, protocol, origin);
      && e.id.None? && e.aiAnswer.None?
      && e.text != ""
      && (q.name.None? ==> e.text == QuestionNotFound)
      && (forall k :: 0 <= k < |e.options| ==> e.options[k] != "")
      && (q.letterItems.None? ==> e.options == [])
      && (q.deep.None? ==> e.myAnswer == "")
      && (q.green.None? ==> e.correctAnswer == "")
      && ImagesWellFormed(e.images, q, load)
  {
    QuestionImagesWellFormed(q, load, protocol, origin);
  }

  predicate Filled(t: Option<string>) {
    t.Some? && t.value != ""
  }

  /** The explanation is the first candidate, in selector order, whose text
      is non-empty; a missing or empty earlier candidate never wins, and with
      none filled the explanation is empty. */
  lemma ExplanationFirstFilled(q: QuestionNode)
    ensures Filled(q.markExplain) ==> Explanation(q) == q.markExplain.value
    ensures !Filled(q.markExplain) && Filled(q.explanationDiv) ==> Explanation(q) == q.explanationDiv.value
    ensures !Filled(q.markExplain) && !Filled(q.explanationDiv) && Filled(q.qAnalysis)
      ==> Explanation(q) == q.qAnalysis.value
    ensures !Filled(q.markExplain) && !Filled(q.explanationDiv) && !Filled(q.qAnalysis) && Filled(q.analyze)
      ==> Explanation(q) == q.analyze.value
    ensures Explanation(q) == "" <==>
      !Filled(q.markExplain) && !Filled(q.explanationDiv) && !Filled(q.qAnalysis) && !Filled(q.analyze)
  {
  }

  // ----- progress -----

  /** `Math.floor(completed / total * 100)` over naturals. The source only
      computes it while at least one resolver call is outstanding. */
  function Percent(completed: nat, total: nat): (p: nat)
    requires 0 < total && completed <= total
    ensures p <= 100
    ensures p == 100 <==> completed == total
    ensures completed == 0 ==> p == 0
  {
    PercentBounds(completed, total);
    completed * 100 / total
  }

  lemma PercentBounds(completed: nat, total: nat)
    requires 0 < total && completed <= total
    ensures completed * 100 / total <= 100
    ensures completed * 100 / total == 100 <==> completed == total
  {
    var x := completed * 100;
    var p := x / total;
    DivBounds(x, total);
    MulLe(completed, total, 100);
    assert p * total <= 100 * total;
    MulCancel(p, 100, total);
    if p == 100 {
      assert total * 100 <= completed * 100;
      MulCancel(total, completed, 100);
    }
    if completed == total {
      assert 100 * total < (p + 1) * total;
      MulLtCancel(100, p + 1, total);
    }
  }

  /** The quotient bounds the dividend from both sides. */
  lemma DivBounds(x: nat, t: nat)
    requires t > 0
    ensures (x / t) * t <= x < (x / t + 1) * t
  {
  }

  lemma MulLe(a: nat, b: nat, c: nat)
    requires a <= b
    ensures a * c <= b * c && c * a <= c * b
  {
  }

  lemma MulCancel(a: nat, b: nat, t: nat)
    requires t > 0 && a * t <= b * t
    ensures a <= b
  {
  }

  lemma MulLtCancel(a: nat, b: nat, t: nat)
    requires a * t < b * t
    ensures a < b
  {
  }

  /** More settled calls never lower the percentage. */
  lemma PercentMonotone(a: nat, b: nat, total: nat)
    requires 0 < total && a <= b <= total
    ensures Percent(a, total) <= Percent(b, total)
  {
    var pa, pb := a * 100 / total, b * 100 / total;
    DivBounds(a * 100, total);
    DivBounds(b * 100, total);
    MulLe(a, b, 100);
    assert pa * total < (pb + 1) * total;
    MulLtCancel(pa, pb + 1, total);
  }

  /** `Math.max(0, Math.min(100, p))`. */
  function ClampPercent(p: int): (r: int)
    ensures 0 <= r <= 100
    ensures 0 <= p <= 100 ==> r == p
    ensures p < 0 ==> r == 0
    ensures p > 100 ==> r == 100
  {
    Max(0, Min(100, p))
  }
}

=== FILE: lines.dfy ===
/** The non-blank line filter shared by the option lists of the documents
    and of the previews. */
module Lines {
  import opened Text

  /** The lines that are not blank (`line.trim()` non-empty), untrimmed,
      in order. */
  function NonBlank(xs: seq<string>): (r: seq<string>)
    ensures |r| <= |xs|
    ensures forall i :: 0 <= i < |r| ==> !AllSpace(r[i])
    ensures (forall k :: 0 <= k < |xs| ==> !AllSpace(xs[k])) ==> r == xs
  {
    if |xs| == 0 then []
    else
      var n := |xs| - 1;
      var front := NonBlank(xs[..n]);
      assert xs[..n] + [xs[n]] == xs;
      if AllSpace(xs[n]) then front else front + [xs[n]]
  }

  /** The positions of the non-blank lines, ascending. */
  function NonBlankAt(xs: seq<string>): (p: seq<nat>)
    ensures forall i, j :: 0 <= i < j < |p| ==> p[i] < p[j]
    ensures forall i :: 0 <= i < |p| ==> p[i] < |xs| && !AllSpace(xs[p[i]])
    ensures forall k :: 0 <= k < |xs| && !AllSpace(xs[k]) ==> k in p
  {
    if |xs| == 0 then []
    else
      var n := |xs| - 1;
      var front := NonBlankAt(xs[..n]);
      assert forall k :: 0 <= k < n ==> xs[..n][k] == xs[k];
      front + (if AllSpace(xs[n]) then [] else [n])
  }

  /** The filter keeps exactly the lines at the non-blank positions, in
      order: nothing non-blank is dropped and nothing is reordered. */
  lemma {:induction false} NonBlankKeeps(xs: seq<string>)
    ensures |NonBlank(xs)| == |NonBlankAt(xs)|
    ensures forall i :: 0 <= i < |NonBlankAt(xs)| ==> NonBlank(xs)[i] == xs[NonBlankAt(xs)[i]]
  {
    if |xs| > 0 {
      var n := |xs| - 1;
      var pre := xs[..n];
      NonBlankKeeps(pre);
      var r, p := NonBlank(pre), NonBlankAt(pre);
      forall i | 0 <= i < |p| ensures r[i] == xs[p[i]] {
        assert pre[p[i]] == xs[p[i]];
      }
      NonBlankKeepsStep(xs, r, p);
    }
  }

  lemma NonBlankKeepsStep(xs: seq<string>, r: seq<string>, p: seq<nat>)
    requires |xs| > 0 && |r| == |p|
    requires forall i :: 0 <= i < |p| ==> p[i] < |xs| && r[i] == xs[p[i]]
    ensures var n := |xs| - 1; var blank := AllSpace(xs[n]);
      var r' := r + (if blank then [] else [xs[n]]);
      var p' := p + (if blank then [] else [n]);
      |r'| == |p'| && forall i :: 0 <= i < |p'| ==> r'[i] == xs[p'[i]]
  {
  }
}

=== FILE: model.dfy ===
/** The normalised question model built by extraction and read by every
    consumer: sections of questions, each question with its images.
    `Question.id` is `None` until the list is displayed; `Some(k)` stands
    for the id string "q_k" that the display step writes into the record. */
module Model {
  import opened Wrappers

  /** One image of a question. `data` is `None` when the resolver rejected
      the URL; otherwise it holds the embeddable value (which may be the
      original URL when loading failed). */
  datatype Image = Image(src: string, alt: string, data: Option<string>, width: nat, height: nat)

  datatype Question = Question(
    id: Option<nat>,
    text: string,
    options: seq<string>,
    myAnswer: string,
    correctAnswer: string,
    explanation: string,
    images: seq<Image>,
    aiAnswer: Option<string>)

  /** One question-type grouping of the page, in document order. */
  datatype Section = Section(name: string, questions: seq<Question>)

  /** A question together with the label of the section holding it. */
  datatype Entry = Entry(section: string, question: Question)

  /** All questions in document order, each tagged with its section label. */
  function Entries(sections: seq<Section>): (r: seq<Entry>)
  {
    if |sections| == 0 then []
    else Tag(sections[0].name, sections[0].questions) + Entries(sections[1..])
  }

  function Tag(name: string, qs: seq<Question>): (r: seq<Entry>)
    ensures |r| == |qs|
    ensures forall k :: 0 <= k < |qs| ==> r[k] == Entry(name, qs[k])
  {
    if |qs| == 0 then [] else [Entry(name, qs[0])] + Tag(name, qs[1..])
  }

  /** The number of questions over all sections. */
  function Total(sections: seq<Section>): (n: nat)
    ensures n == |Entries(sections)|
  {
    if |sections| == 0 then 0 else |sections[0].questions| + Total(sections[1..])
  }

  /** Ids are exactly 0 .. N-1 in document order. */
  predicate WellNumbered(sections: seq<Section>) {
    var es := Entries(sections);
    forall k :: 0 <= k < |es| ==> es[k].question.id == Some(k)
  }

  /** The display step's counter loop over one section's questions, starting
      from `next`. */
  function NumberFrom(qs: seq<Question>, next: nat): (r: seq<Question>)
    ensures |r| == |qs|
    ensures forall k :: 0 <= k < |qs| ==> r[k] == qs[k].(id := Some(next + k))
  {
    if |qs| == 0 then [] else [qs[0].(id := Some(next))] + NumberFrom(qs[1..], next + 1)
  }

  /** The counter loop over all sections, starting from `next`. */
  function AssignIdsFrom(sections: seq<Section>, next: nat): (r: seq<Section>)
    ensures |r| == |sections|
    ensures forall i :: 0 <= i < |r| ==>
      r[i].name == sections[i].name && |r[i].questions| == |sections[i].questions|
  {
    if |sections| == 0 then []
    else
      var s := sections[0];
      [Section(s.name, NumberFrom(s.questions, next))] + AssignIdsFrom(sections[1..], next + |s.questions|)
  }

  /** `a` is `b` with the ids `next`, `next + 1`, ... written in, and
      nothing else changed. */
  predicate Renumbered(a: seq<Entry>, b: seq<Entry>, next: nat) {
    && |a| == |b|
    && forall k :: 0 <= k < |a| ==> a[k] == b[k].(question := b[k].question.(id := Some(next + k)))
  }

  /** The counter loop gives every question, in document order, the next
      id counted from `next`, and changes nothing else. */
  lemma {:induction false} AssignIdsFromEntries(sections: seq<Section>, next: nat)
    ensures Renumbered(Entries(AssignIdsFrom(sections, next)), Entries(sections), next)
  {
    if |sections| > 0 {
      var s := sections[0];
      var m := next + |s.questions|;
      var tail := AssignIdsFrom(sections[1..], m);
      AssignIdsFromEntries(sections[1..], m);
      RenumberedEntries(s.name, s.questions, next, Entries(sections[1..]), Entries(tail));
      AssignIdsFromStep(sections, next);
    }
  }

  /** The entries of the numbered sections: the first section's questions
      numbered from `next`, then the rest numbered after them. */
  lemma AssignIdsFromStep(sections: seq<Section>, next: nat)
    requires |sections| > 0
    ensures Entries(AssignIdsFrom(sections, next))
         == Tag(sections[0].name, NumberFrom(sections[0].questions, next))
            + Entries(AssignIdsFrom(sections[1..], next + |sections[0].questions|))
  {
    var r := AssignIdsFrom(sections, next);
    assert r[0] == Section(sections[0].name, NumberFrom(sections[0].questions, next));
    assert r[1..] == AssignIdsFrom(sections[1..], next + |sections[0].questions|);
  }

  /** One section renumbered from `next` in front of the rest renumbered
      after it: every entry carries its position counted from `next`. */
  lemma RenumberedEntries(name: string, qs: seq<Question>, next: nat, rest: seq<Entry>, done: seq<Entry>)
    requires Renumbered(done, rest, next + |qs|)
    ensures Renumbered(Tag(name, NumberFrom(qs, next)) + done, Tag(name, qs) + rest, next)
  {
    var a := Tag(name, NumberFrom(qs, next)) + done;
    var b := Tag(name, qs) + rest;
    forall k | 0 <= k < |a| ensures a[k] == b[k].(question := b[k].question.(id := Some(next + k))) {
      if k >= |qs| {
        assert a[k] == done[k - |qs|] && b[k] == rest[k - |qs|];
      }
    }
  }

  /** Ids "q_0" .. "q_{N-1}" over the flattened document order. */
  function AssignIds(sections: seq<Section>): (r: seq<Section>)
    ensures WellNumbered(r)
    ensures |r| == |sections|
    ensures forall i :: 0 <= i < |r| ==>
      r[i].name == sections[i].name && |r[i].questions| == |sections[i].questions|
    ensures |Entries(r)| == |Entries(sections)|
    ensures forall k :: 0 <= k < |Entries(r)| ==>
      Entries(r)[k] == Entries(sections)[k].(question := Entries(sections)[k].question.(id := Some(k)))
  {
    AssignIdsFromEntries(sections, 0);
    AssignIdsFrom(sections, 0)
  }
}

=== FILE: pagination.dfy ===
/** The PDF exporter's page layout: the document is cut into chunks (each
    type heading and each question), every chunk is rendered to an image
    of some height, and the images are stacked down the page with a gap,
    starting a new page when the next one would cross the bottom margin.
    Heights come from the renderer and are parameters here. One `try`
    covers a chunk's whole turn, so a chunk can fail before its height is
    known, or after the overflow test has already moved the cursor. */
module Pagination {
  import opened Wrappers
  import opened Render

  /** Space above the first chunk of a page, and below the last. */
  const Margin: nat := 40
  /** Space between two chunks. */
  const Gap: nat := 20

  /** Where one chunk went: the physical page (from 0), its top and its
      height, and the page number printed at the bottom of that page. */
  datatype Placement = Placement(page: nat, top: nat, height: nat, stamp: nat)

  /** The loop's state: the next free offset, the counter the loop keeps
      as its page index, the number of physical pages, and the placements
      so far. */
  datatype Cursor = Cursor(y: nat, pageIndex: nat, pages: nat, placed: seq<Placement>)

  /** How a chunk's turn ended: the capture failed and nothing happened;
      the chunk was drawn with height `h`; or the capture gave height `h`
      and the overflow test ran, but converting or drawing the image
      failed, so nothing was drawn and the cursor did not advance. */
  datatype Outcome = CaptureFailed | Drawn(h: nat) | DrawFailed(h: nat)

  /** A fresh document has one page. */
  const Start := Cursor(Margin, 0, 1, [])

  predicate Overflows(c: Cursor, h: nat, pageHeight: nat) {
    c.y + h > pageHeight - Margin
  }

  /** The overflow test as written: a page is added only when the page
      index is already positive, but the index always advances. */
  function TurnAsWritten(c: Cursor, h: nat, pageHeight: nat): Cursor {
    if Overflows(c, h, pageHeight) then
      Cursor(Margin, c.pageIndex + 1, if c.pageIndex > 0 then c.pages + 1 else c.pages, c.placed)
    else c
  }

  /** Drawing a chunk of height `h` at the cursor on the current page. */
  function Place(d: Cursor, h: nat): Cursor
    requires d.pages >= 1
  {
    Cursor(d.y + h + Gap, d.pageIndex, d.pages, d.placed + [Placement(d.pages - 1, d.y, h, d.pageIndex + 1)])
  }

  /** One chunk, as the exporter handles it. */
  function StepAsWritten(c: Cursor, chunk: Outcome, pageHeight: nat): Cursor
    requires c.pages >= 1
  {
    match chunk
    case CaptureFailed => c
    case DrawFailed(h) => TurnAsWritten(c, h, pageHeight)
    case Drawn(h) => Place(TurnAsWritten(c, h, pageHeight), h)
  }

  /** The whole loop, as written. */
  function RunAsWritten(chunks: seq<Outcome>, pageHeight: nat): (c: Cursor)
    ensures c.pages >= 1
  {
    if |chunks| == 0 then Start
    else StepAsWritten(RunAsWritten(chunks[..|chunks| - 1], pageHeight), chunks[|chunks| - 1], pageHeight)
  }

  /** The total the exporter reports and prints on the last page. */
  function ReportedPages(c: Cursor): nat {
    c.pageIndex + 1
  }

  /** As written, the first overflow reuses the first page: from then on
      the reported total is one more than the pages the file has. */
  lemma {:induction false} ReportedPagesAsWritten(chunks: seq<Outcome>, pageHeight: nat)
    ensures var c := RunAsWritten(chunks, pageHeight);
      && (c.pageIndex == 0 ==> ReportedPages(c) == c.pages)
      && (c.pageIndex > 0 ==> ReportedPages(c) == c.pages + 1)
  {
    if |chunks| > 0 {
      ReportedPagesAsWritten(chunks[..|chunks| - 1], pageHeight);
    }
  }

  /** Two placements on the same page whose spans meet. */
  predicate Overlap(a: Placement, b: Placement) {
    a.page == b.page && a.top < b.top + b.height && b.top < a.top + a.height
  }

  /** Three chunks of 300 on an A4 page (842 high): the third overflows, no
      page is added, and it is drawn over the first; the file has one
      page, stamped "Page 2", and two pages are reported. */
  lemma OverlapAsWritten()
    ensures var c := RunAsWritten([Drawn(300), Drawn(300), Drawn(300)], 842);
      && |c.placed| == 3
      && Overlap(c.placed[0], c.placed[2])
      && c.pages == 1 && ReportedPages(c) == 2
      && c.placed[2].stamp == 2
  {
    var s1: seq<Outcome> := [Drawn(300)];
    var s2: seq<Outcome> := s1 + [Drawn(300)];
    var s3: seq<Outcome> := s2 + [Drawn(300)];
    assert s1[..0] == [] && s2[..1] == s1 && s3[..2] == s2;
    assert s3 == [Drawn(300), Drawn(300), Drawn(300)];
    var c1 := RunAsWritten(s1, 842);
    assert c1 == StepAsWritten(Start, Drawn(300), 842);
    assert c1 == Cursor(360, 0, 1, [Placement(0, 40, 300, 1)]);
    var c2 := RunAsWritten(s2, 842);
    assert c2 == StepAsWritten(c1, Drawn(300), 842);
    assert c2 == Cursor(680, 0, 1, [Placement(0, 40, 300, 1), Placement(0, 360, 300, 1)]);
    var c3 := RunAsWritten(s3, 842);
    assert c3 == StepAsWritten(c2, Drawn(300), 842);
  }

  // ----- the corrected loop -----

  /** The corrected overflow test: a page is added on every overflow. */
  function Turn(c: Cursor, h: nat, pageHeight: nat): Cursor {
    if Overflows(c, h, pageHeight) then Cursor(Margin, c.pageIndex + 1, c.pages + 1, c.placed) else c
  }

  /** One chunk, adding a page on every overflow. */
  function Step(c: Cursor, chunk: Outcome, pageHeight: nat): Cursor
    requires c.pages >= 1
  {
    match chunk
    case CaptureFailed => c
    case DrawFailed(h) => Turn(c, h, pageHeight)
    case Drawn(h) => Place(Turn(c, h, pageHeight), h)
  }

  /** What the loop keeps true: the page index counts the pages, every
      chunk is on an existing page and stamped with its own number, starts
      below the top margin, and the chunks of one page follow each other
      with the gap between them and end above the cursor. */
  predicate Laid(c: Cursor) {
    && c.pages == c.pageIndex + 1
    && c.y >= Margin
    && (forall i :: 0 <= i < |c.placed| ==>
          && c.placed[i].page < c.pages
          && c.placed[i].stamp == c.placed[i].page + 1
          && c.placed[i].top >= Margin)
    && (forall i :: 0 <= i < |c.placed| && c.placed[i].page == c.pages - 1 ==>
          c.placed[i].top + c.placed[i].height + Gap <= c.y)
    && (forall i, j :: 0 <= i < j < |c.placed| && c.placed[i].page == c.placed[j].page ==>
          c.placed[i].top + c.placed[i].height + Gap <= c.placed[j].top)
  }

  lemma StepLaid(c: Cursor, chunk: Outcome, pageHeight: nat)
    requires Laid(c)
    ensures Laid(Step(c, chunk, pageHeight))
  {
    if !chunk.CaptureFailed? {
      TurnLaid(c, chunk.h, pageHeight);
      if chunk.Drawn? {
        PlaceLaid(Turn(c, chunk.h, pageHeight), chunk.h);
      }
    }
  }

  /** Moving to a new page keeps the invariant: no chunk is on it yet. */
  lemma TurnLaid(c: Cursor, h: nat, pageHeight: nat)
    requires Laid(c)
    ensures Laid(Turn(c, h, pageHeight))
  {
    if Overflows(c, h, pageHeight) {
      var d := Turn(c, h, pageHeight);
      assert forall i :: 0 <= i < |d.placed| ==> d.placed[i].page < d.pages - 1;
    }
  }

  /** Drawing at the cursor keeps the invariant. */
  lemma PlaceLaid(d: Cursor, h: nat)
    requires Laid(d)
    ensures Laid(Place(d, h))
  {
    var r := Place(d, h);
    assert r.placed == d.placed + [Placement(d.pages - 1, d.y, h, d.pageIndex + 1)];
    forall i, j | 0 <= i < j < |r.placed| && r.placed[i].page == r.placed[j].page
      ensures r.placed[i].top + r.placed[i].height + Gap <= r.placed[j].top
    {
      if j == |d.placed| {
        assert r.placed[i] == d.placed[i];
      }
    }
  }

  /** The whole corrected loop. */
  function Run(chunks: seq<Outcome>, pageHeight: nat): (c: Cursor)
    ensures Laid(c)
  {
    if |chunks| == 0 then Start
    else
      var c := Run(chunks[..|chunks| - 1], pageHeight);
      StepLaid(c, chunks[|chunks| - 1], pageHeight);
      Step(c, chunks[|chunks| - 1], pageHeight)
  }

  /** With a page added on every overflow, the reported total is the number
      of pages in the file, and no two chunks overlap. */
  lemma PagesCorrected(chunks: seq<Outcome>, pageHeight: nat)
    ensures var c := Run(chunks, pageHeight);
      && ReportedPages(c) == c.pages
      && forall i, j :: 0 <= i < j < |c.placed| ==> !Overlap(c.placed[i], c.placed[j])
  {
  }

  /** A chunk no taller than the printable height ends above the bottom
      margin. */
  predicate Fits(p: Placement, pageHeight: nat) {
    p.height + 2 * Margin <= pageHeight ==> p.top + p.height + Margin <= pageHeight
  }

  /** Every chunk that is not taller than the printable height ends above
      the bottom margin. */
  lemma {:induction false} ChunksFit(chunks: seq<Outcome>, pageHeight: nat)
    ensures forall i :: 0 <= i < |Run(chunks, pageHeight).placed| ==> Fits(Run(chunks, pageHeight).placed[i], pageHeight)
  {
    if |chunks| > 0 {
      var n := |chunks| - 1;
      ChunksFit(chunks[..n], pageHeight);
      var c := Run(chunks[..n], pageHeight);
      var r := Run(chunks, pageHeight);
      assert r == Step(c, chunks[n], pageHeight);
      forall i | 0 <= i < |r.placed| ensures Fits(r.placed[i], pageHeight) {
        if i < |c.placed| {
          assert r.placed[i] == c.placed[i];
        } else {
          var h := chunks[n].h;
          if Overflows(c, h, pageHeight) {
            assert r.placed[i] == Placement(c.pages, Margin, h, c.pageIndex + 2);
          } else {
            assert r.placed[i] == Placement(c.pages - 1, c.y, h, c.pageIndex + 1);
          }
        }
      }
    }
  }

  /** How many chunks were drawn. */
  function Rendered(chunks: seq<Outcome>): nat {
    if |chunks| == 0 then 0
    else Rendered(chunks[..|chunks| - 1]) + (if chunks[|chunks| - 1].Drawn? then 1 else 0)
  }

  /** Each drawn chunk is placed once, in order; a chunk whose turn failed,
      before or after the overflow test, is not placed. */
  lemma {:induction false} EveryRenderedChunkPlaced(chunks: seq<Outcome>, pageHeight: nat)
    ensures |Run(chunks, pageHeight).placed| == Rendered(chunks)
    ensures |RunAsWritten(chunks, pageHeight).placed| == Rendered(chunks)
  {
    if |chunks| > 0 {
      EveryRenderedChunkPlaced(chunks[..|chunks| - 1], pageHeight);
    }
  }

  /** A chunk that fails after the overflow test still leaves its trace:
      when it overflows, the cursor moves to the top of a new page, in both
      loops, and the written loop's page index advances as well. */
  lemma DrawFailedTurnsPage(c: Cursor, h: nat, pageHeight: nat)
    requires Laid(c) && Overflows(c, h, pageHeight)
    ensures var r := Step(c, DrawFailed(h), pageHeight);
      r.y == Margin && r.pages == c.pages + 1 && r.placed == c.placed
    ensures var w := StepAsWritten(c, DrawFailed(h), pageHeight);
      w.y == Margin && w.pageIndex == c.pageIndex + 1 && w.placed == c.placed
  {
  }

  /** The corrected loop differs from the written one only from the first
      overflow on: until then both place every chunk alike. */
  lemma {:induction false} SameBeforeOverflow(chunks: seq<Outcome>, pageHeight: nat)
    requires RunAsWritten(chunks, pageHeight).pageIndex == 0
    ensures Run(chunks, pageHeight) == RunAsWritten(chunks, pageHeight)
  {
    if |chunks| > 0 {
      var n := |chunks| - 1;
      var c := RunAsWritten(chunks[..n], pageHeight);
      assert StepAsWritten(c, chunks[n], pageHeight).pageIndex == 0;
      SameBeforeOverflow(chunks[..n], pageHeight);
      StepsAgree(c, chunks[n], pageHeight);
    }
  }

  lemma StepsAgree(c: Cursor, chunk: Outcome, pageHeight: nat)
    requires c.pages >= 1 && StepAsWritten(c, chunk, pageHeight).pageIndex == 0
    ensures c.pageIndex == 0
    ensures Step(c, chunk, pageHeight) == StepAsWritten(c, chunk, pageHeight)
  {
  }

  // ----- the chunks of a document -----

  /** A heading or a question: what the exporter renders one at a time. */
  datatype Chunk = Heading(text: string) | Item(block: QuestionBlock)

  /** Each group's heading followed by its questions, in document order. */
  function Chunks(groups: seq<GroupBlock>): (cs: seq<Chunk>)
    ensures |cs| == |groups| + QuestionCount(groups)
  {
    if |groups| == 0 then []
    else
      var g := groups[|groups| - 1];
      Chunks(groups[..|groups| - 1]) + [Heading(g.heading)] + seq(|g.questions|, i requires 0 <= i < |g.questions| => Item(g.questions[i]))
  }

  function QuestionCount(groups: seq<GroupBlock>): nat {
    if |groups| == 0 then 0 else QuestionCount(groups[..|groups| - 1]) + |groups[|groups| - 1].questions|
  }

  /** Where group `i`'s heading sits among the chunks: after the heading
      and the questions of every earlier group. */
  function Offset(groups: seq<GroupBlock>, i: nat): nat
    requires i <= |groups|
  {
    i + QuestionCount(groups[..i])
  }

  /** Group `i`'s heading sits at `Offset(groups, i)`, with room after it
      for the group's questions. */
  predicate HeadingsAt(groups: seq<GroupBlock>, cs: seq<Chunk>) {
    forall i :: 0 <= i < |groups| ==>
      Offset(groups, i) + 1 + |groups[i].questions| <= |cs|
      && cs[Offset(groups, i)] == Heading(groups[i].heading)
  }

  /** Question `j` of group `i` sits `j + 1` places after the group's
      heading. */
  predicate ItemAt(groups: seq<GroupBlock>, cs: seq<Chunk>, i: nat, j: nat)
    requires i < |groups| && j < |groups[i].questions|
  {
    Offset(groups, i) + 1 + j < |cs| && cs[Offset(groups, i) + 1 + j] == Item(groups[i].questions[j])
  }

  /** Group `i`'s questions follow its heading, in order. */
  predicate ItemsAt(groups: seq<GroupBlock>, cs: seq<Chunk>) {
    forall i: nat, j: nat :: i < |groups| && j < |groups[i].questions| ==> ItemAt(groups, cs, i, j)
  }

  /** The chunks hold each group's heading followed by its questions, the
      groups in order. */
  lemma {:induction false} ChunksOrder(groups: seq<GroupBlock>)
    ensures HeadingsAt(groups, Chunks(groups)) && ItemsAt(groups, Chunks(groups))
  {
    if |groups| > 0 {
      var n := |groups| - 1;
      var g := groups[n];
      ChunksOrder(groups[..n]);
      var front := Chunks(groups[..n]);
      var items := seq(|g.questions|, k requires 0 <= k < |g.questions| => Item(g.questions[k]));
      assert Chunks(groups) == front + [Heading(g.heading)] + items;
      HeadingsSnoc(groups, front, items);
      ItemsSnoc(groups, front, items);
    }
  }

  lemma HeadingsSnoc(groups: seq<GroupBlock>, front: seq<Chunk>, items: seq<Chunk>)
    requires |groups| > 0
    requires HeadingsAt(groups[..|groups| - 1], front)
    requires |front| == Offset(groups, |groups| - 1) && |items| == |groups[|groups| - 1].questions|
    ensures HeadingsAt(groups, front + [Heading(groups[|groups| - 1].heading)] + items)
  {
    var n := |groups| - 1;
    var cs := front + [Heading(groups[n].heading)] + items;
    forall i | 0 <= i < |groups|
      ensures Offset(groups, i) + 1 + |groups[i].questions| <= |cs|
      ensures cs[Offset(groups, i)] == Heading(groups[i].heading)
    {
      if i < n {
        SameOffset(groups, n, i);
        assert cs[Offset(groups, i)] == front[Offset(groups, i)];
      }
    }
  }

  lemma ItemsSnoc(groups: seq<GroupBlock>, front: seq<Chunk>, items: seq<Chunk>)
    requires |groups| > 0
    requires ItemsAt(groups[..|groups| - 1], front)
    requires |front| == Offset(groups, |groups| - 1)
    requires var qs := groups[|groups| - 1].questions;
      |items| == |qs| && forall k :: 0 <= k < |qs| ==> items[k] == Item(qs[k])
    ensures ItemsAt(groups, front + [Heading(groups[|groups| - 1].heading)] + items)
  {
    var n := |groups| - 1;
    var cs := front + [Heading(groups[n].heading)] + items;
    forall i: nat, j: nat | i < |groups| && j < |groups[i].questions|
      ensures ItemAt(groups, cs, i, j)
    {
      if i < n {
        SameOffset(groups, n, i);
        assert ItemAt(groups[..n], front, i, j);
        assert cs[Offset(groups, i) + 1 + j] == front[Offset(groups, i) + 1 + j];
      } else {
        assert cs[Offset(groups, i) + 1 + j] == items[j];
      }
    }
  }

  /** A group keeps its offset in any longer list. */
  lemma SameOffset(groups: seq<GroupBlock>, n: nat, i: nat)
    requires i < n <= |groups|
    ensures Offset(groups, i) == Offset(groups[..n], i) && groups[i] == groups[..n][i]
  {
    assert groups[..i] == groups[..n][..i];
  }

  /** The exporter's layout of a document: every chunk in order, each as
      the renderer handled it, stacked by the corrected loop. */
  function Layout(groups: seq<GroupBlock>, render: Chunk -> Outcome, pageHeight: nat): (c: Cursor)
    ensures Laid(c)
    ensures |c.placed| <= |groups| + QuestionCount(groups)
    ensures (forall k :: 0 <= k < |Chunks(groups)| ==> render(Chunks(groups)[k]).Drawn?) ==>
      |c.placed| == |groups| + QuestionCount(groups)
  {
    var cs := Chunks(groups);
    var outcomes := seq(|cs|, k requires 0 <= k < |cs| => render(cs[k]));
    EveryRenderedChunkPlaced(outcomes, pageHeight);
    RenderedBound(outcomes);
    Run(outcomes, pageHeight)
  }

  /** At most every chunk is drawn, and exactly every one when all are. */
  lemma {:induction false} RenderedBound(chunks: seq<Outcome>)
    ensures Rendered(chunks) <= |chunks|
    ensures (forall k :: 0 <= k < |chunks| ==> chunks[k].Drawn?) ==> Rendered(chunks) == |chunks|
  {
    if |chunks| > 0 {
      RenderedBound(chunks[..|chunks| - 1]);
    }
  }
}

=== FILE: preview.dfy ===
/** The limits of the export previews: how many questions, options and
    characters a preview shows, and the page estimate of the PDF preview. */
module Preview {
  import opened Wrappers
  import opened Text
  import opened Lines

  /** `xs.slice(0, limit)` together with `xs.length - shown.length`. */
  function Shown<T>(xs: seq<T>, limit: nat): (r: (seq<T>, nat))
    ensures |r.0| <= limit && |r.0| <= |xs|
    ensures r.0 == xs[..|r.0|]
    ensures |r.0| + r.1 == |xs|
    ensures |xs| <= limit ==> r.0 == xs && r.1 == 0
    ensures |xs| > limit ==> |r.0| == limit
  {
    var n := if |xs| < limit then |xs| else limit;
    (xs[..n], |xs| - n)
  }

  const QuestionsPerType := 3
  const TextLimit := 100
  const Ellipsis := "..."

  /** A long text is cut to its first hundred characters and marked. */
  function Truncate(s: string): (r: string)
    ensures |s| <= TextLimit ==> r == s
    ensures |s| > TextLimit ==> |r| == TextLimit + |Ellipsis| && StartsWith(r, s[..TextLimit]) && EndsWith(r, Ellipsis)
  {
    if |s| > TextLimit then s[..TextLimit] + Ellipsis else s
  }

  /** The marked part of a cut text reads back as the start of the text. */
  lemma TruncateKeepsStart(s: string)
    ensures StartsWith(s, Truncate(s)[..Min(|s|, TextLimit)])
  {
  }

  const OptionsShown := 4

  /** The options a preview lists (the non-blank ones among the first
      four lines, in order) and whether it adds a "..." line. */
  function PreviewOptions(options: string): (r: (seq<string>, bool))
    ensures var first := Split(options, '\n')[..Min(|Split(options, '\n')|, OptionsShown)];
      && r.0 == NonBlank(first)
      && (forall i :: 0 <= i < |r.0| ==> r.0[i] in first)
    ensures |r.0| <= OptionsShown
    ensures forall i :: 0 <= i < |r.0| ==> !AllSpace(r.0[i])
    ensures r.1 <==> |Split(options, '\n')| > OptionsShown
  {
    var lines := Split(options, '\n');
    var first := Shown(lines, OptionsShown).0;
    NonBlankKeeps(first);
    (NonBlank(first), |lines| > OptionsShown)
  }

  const TypesShown := 2
  const PreviewQuestions := 2

  /** `Math.ceil(r * 1.5)` for a whole number `r`. */
  function CeilThreeHalves(r: nat): (c: nat)
    ensures 2 * c >= 3 * r && 2 * c <= 3 * r + 1
  {
    (3 * r + 1) / 2
  }

  /** The page estimate of the PDF preview, which appears only when some
      types are left out: the cover, one page per type shown, and one and a
      half pages, rounded up, per type left out. */
  function PageEstimate(types: nat): (pages: Option<nat>)
    ensures pages.None? <==> types <= TypesShown
    ensures pages.Some? ==>
      && 2 * pages.value >= 2 * (1 + TypesShown) + 3 * (types - TypesShown)
      && 2 * pages.value <= 2 * (1 + TypesShown) + 3 * (types - TypesShown) + 1
  {
    var shown := if types < TypesShown then types else TypesShown;
    var currentPage := 2 + shown;
    if shown < types then Some(currentPage - 1 + CeilThreeHalves(types - shown)) else None
  }

  /** More types never lower the estimate, and it always exceeds the
      number of types. */
  lemma PageEstimateMonotone(a: nat, b: nat)
    requires TypesShown < a <= b
    ensures PageEstimate(a).Some? && PageEstimate(b).Some?
    ensures PageEstimate(a).value <= PageEstimate(b).value
    ensures PageEstimate(b).value > b
  {
  }
}

=== FILE: prompt.dfy ===
/** The AI side: the record kept per displayed question, the choice of a
    subject template, the prompt text, the provider's display name, and
    writing an answer back into the question model. The request to the
    provider is outside the model. */
module Prompt {
  import opened Wrappers
  import opened Text
  import opened Model
  import opened SettingsMerge

  /** What the display step records of a question for the AI. */
  datatype Asked = Asked(
    text: string,
    options: seq<string>,
    correctAnswer: string,
    myAnswer: string,
    explanation: string,
    aiAnswer: Option<string>)

  function AskedOf(q: Question): Asked {
    Asked(q.text, q.options, q.correctAnswer, q.myAnswer, q.explanation, None)
  }

  /** The display step writes a record under every displayed id. Records of
      an earlier display stay unless overwritten: the table is never
      cleared. */
  function Register(active: map<nat, Asked>, es: seq<Entry>): (r: map<nat, Asked>)
    ensures forall k :: k in active ==> k in r
    ensures forall k :: k in r && k !in active ==> exists i :: 0 <= i < |es| && es[i].question.id == Some(k)
  {
    if |es| == 0 then active
    else
      var n := |es| - 1;
      var front := Register(active, es[..n]);
      assert forall i :: 0 <= i < n ==> es[..n][i] == es[i];
      var q := es[n].question;
      if q.id.Some? then front[q.id.value := AskedOf(q)] else front
  }

  /** After a display with ids 0 .. N-1, id k < N holds the record of the
      k-th question, and every other id keeps what it had. */
  lemma {:induction false} RegisterNumbered(active: map<nat, Asked>, es: seq<Entry>)
    requires forall i :: 0 <= i < |es| ==> es[i].question.id == Some(i)
    ensures forall k :: 0 <= k < |es| ==> k in Register(active, es) && Register(active, es)[k] == AskedOf(es[k].question)
    ensures forall k :: k in active && k >= |es| ==> k in Register(active, es) && Register(active, es)[k] == active[k]
  {
    if |es| > 0 {
      var n := |es| - 1;
      var pre := es[..n];
      assert forall i :: 0 <= i < n ==> pre[i] == es[i];
      RegisterNumbered(active, pre);
      var front := Register(active, pre);
      var m := front[n := AskedOf(es[n].question)];
      forall k | 0 <= k < |es|
        ensures k in m && m[k] == AskedOf(es[k].question)
      {
        if k < n {
          assert k in front && front[k] == AskedOf(pre[k].question);
          assert pre[k] == es[k];
        }
      }
      forall k | k in active && k >= |es|
        ensures k in m && m[k] == active[k]
      {
        assert k in front && front[k] == active[k];
      }
      assert Register(active, es) == m;
    }
  }

  // ----- choosing the template -----

  datatype Subject = Math | English | Science | General

  /** A character of the class `[\d+\-*\/^=()]`. */
  predicate MathChar(c: char) {
    IsDigit(c) || c == '+' || c == '-' || c == '*' || c == '/' || c == '^' || c == '=' || c == '(' || c == ')'
  }

  predicate HasMathChar(s: string) {
    exists i :: 0 <= i < |s| && MathChar(s[i])
  }

  /** `n` consecutive ASCII letters end just before position `e`. */
  predicate RunEndsAt(s: string, e: int, n: nat) {
    n <= e <= |s| && forall k :: e - n <= k < e ==> IsAsciiLetter(s[k])
  }

  /** What `/[a-zA-Z]{n,}/` matches: a run of at least `n` letters. */
  predicate LetterRun(s: string, n: nat) {
    exists e :: 0 <= e <= |s| && RunEndsAt(s, e, n)
  }

  /** The regex scan: one pass, counting the current run of letters, and
      stopping as soon as it is long enough. */
  method FindRun(s: string, n: nat) returns (found: bool)
    requires n >= 1
    ensures found <==> LetterRun(s, n)
  {
    var i := 0;
    var run := 0;
    found := false;
    while i < |s| && !found
      invariant 0 <= run <= i <= |s|
      invariant forall k :: i - run <= k < i ==> IsAsciiLetter(s[k])
      invariant run < i ==> !IsAsciiLetter(s[i - run - 1])
      invariant found ==> RunEndsAt(s, i, n)
      invariant !found ==> run < n && forall e :: n <= e <= i ==> !RunEndsAt(s, e, n)
    {
      if IsAsciiLetter(s[i]) {
        run := run + 1;
      } else {
        run := 0;
      }
      i := i + 1;
      if run >= n {
        found := true;
      }
    }
  }

  /** The order of the tests: arithmetic first, then English, then the
      sciences, then the default. */
  function Classify(text: string, options: seq<string>): Subject {
    if HasMathChar(text) || Contains(text, "解方程") || Contains(text, "计算") || Contains(text, "求值") then Math
    else if LetterRun(text, 3) || Contains(text, "translate") || Contains(text, "英语")
         || (exists k :: 0 <= k < |options| && LetterRun(options[k], 5)) then English
    else if Contains(text, "化学") || Contains(text, "物理") || Contains(text, "生物") || Contains(text, "分子") then Science
    else General
  }

  /** A digit or an operator anywhere makes a question a mathematics one,
      whatever else it says; a word of three letters makes a question
      without them an English one; the "translate" test never decides,
      since the word is itself such a run; and the default template is used
      exactly when none of the remaining eleven tests fires. */
  lemma ClassifyPriorities(text: string, options: seq<string>)
    ensures HasMathChar(text) ==> Classify(text, options) == Math
    ensures (!HasMathChar(text) && !Contains(text, "解方程") && !Contains(text, "计算") && !Contains(text, "求值")
             && LetterRun(text, 3)) ==> Classify(text, options) == English
    ensures Contains(text, "translate") ==> LetterRun(text, 3)
    ensures Classify(text, options) == General <==>
      && !HasMathChar(text) && !Contains(text, "解方程") && !Contains(text, "计算") && !Contains(text, "求值")
      && !LetterRun(text, 3) && !Contains(text, "英语")
      && (forall k :: 0 <= k < |options| ==> !LetterRun(options[k], 5))
      && !Contains(text, "化学") && !Contains(text, "物理") && !Contains(text, "生物") && !Contains(text, "分子")
  {
    if Contains(text, "translate") {
      ContainsIff(text, "translate");
      var i :| OccursAt(text, "translate", i);
      assert text[i..i + 9] == "translate";
      assert RunEndsAt(text, i + 3, 3) by {
        forall k | i <= k < i + 3 ensures IsAsciiLetter(text[k]) {
          assert text[k] == "translate"[k - i];
        }
      }
    }
  }

  /** How JavaScript prints a template value: a missing one reads "undefined". */
  function TemplateText(t: Option<string>): string {
    if t.Some? then t.value else "undefined"
  }

  function Template(ai: AiSettings, subject: Subject): string {
    match subject
    case Math => TemplateText(ai.customPrompts.math)
    case English => TemplateText(ai.customPrompts.english)
    case Science => TemplateText(ai.customPrompts.science)
    case General => ai.defaultPrompt
  }

  /** With the default settings every subject gets its own template. */
  lemma DefaultTemplates(subject: Subject)
    ensures Template(Defaults.ai, subject) ==
      match subject
      case Math => MathPrompt
      case English => EnglishPrompt
      case Science => SciencePrompt
      case General => DefaultPrompt
  {
  }

  // ----- the prompt text -----

  const QuestionHead := "题目："
  const OptionsHead := "选项：\n"
  const AnswerHead := "正确答案："
  const Closing := "请提供详细解答，包括思路分析和结论。"
  const Retry := "\n请提供与之前不同的解答方法和角度。"

  /** Each option on its own line, then a blank line. */
  function OptionLines(options: seq<string>): string {
    if |options| == 0 then "" else OptionLines(options[..|options| - 1]) + options[|options| - 1] + "\n"
  }

  function OptionsBlock(options: seq<string>): string {
    if |options| > 0 then OptionsHead + OptionLines(options) + "\n" else ""
  }

  function AnswerBlock(correct: string): string {
    if correct != "" then AnswerHead + correct + "\n\n" else ""
  }

  /** The prompt for an id: empty for an id the table does not hold. */
  function GeneratePrompt(active: map<nat, Asked>, id: nat, ai: AiSettings): (p: string)
    ensures id !in active <==> p == ""
  {
    if id !in active then ""
    else
      var q := active[id];
      PromptHead(ai, q) + PromptBody(q) + Closing
  }

  /** The options and the correct answer, each when present. */
  function PromptBody(q: Asked): string {
    OptionsBlock(q.options) + AnswerBlock(q.correctAnswer)
  }

  /** The template chosen for the question, then the question text. */
  function PromptHead(ai: AiSettings, q: Asked): string {
    Template(ai, Classify(q.text, q.options)) + "\n\n" + QuestionHead + q.text + "\n\n"
  }

  /** Asking again sends the prompt with a request for a different approach. */
  function RegeneratePrompt(active: map<nat, Asked>, id: nat, ai: AiSettings): (p: string)
    ensures EndsWith(p, Retry)
    ensures p[..|p| - |Retry|] == GeneratePrompt(active, id, ai)
  {
    GeneratePrompt(active, id, ai) + Retry
  }

  /** The option lines are the options joined by line breaks, each followed
      by one. */
  lemma {:induction false} OptionLinesJoin(options: seq<string>)
    requires |options| >= 1
    ensures OptionLines(options) == Join(options, '\n') + "\n"
  {
    var n := |options| - 1;
    if n > 0 {
      OptionLinesJoin(options[..n]);
      JoinSnoc(options[..n], options[n], '\n');
      assert options[..n] + [options[n]] == options;
    } else {
      assert options[..0] == [];
    }
  }

  lemma {:induction false} JoinSnoc(xs: seq<string>, x: string, c: char)
    requires |xs| >= 1
    ensures Join(xs + [x], c) == Join(xs, c) + [c] + x
  {
    if |xs| > 1 {
      assert (xs + [x])[1..] == xs[1..] + [x];
      JoinSnoc(xs[1..], x, c);
    } else {
      assert (xs + [x])[1..] == [x];
    }
  }

  /** The options block lists exactly the options, one per line, as long as
      none holds a line break. */
  lemma OptionsBlockLines(options: seq<string>)
    requires |options| >= 1
    requires forall k :: 0 <= k < |options| ==> Free(options[k], '\n')
    ensures var b := OptionsBlock(options);
      && StartsWith(b, OptionsHead) && EndsWith(b, "\n\n")
      && Split(b[|OptionsHead|..|b| - 2], '\n') == options
  {
    var b := OptionsBlock(options);
    OptionLinesJoin(options);
    var j := Join(options, '\n');
    assert b == OptionsHead + j + "\n\n";
    assert b[|OptionsHead|..|b| - 2] == j;
    SplitJoin(options, '\n');
  }

  /** The prompt opens with the template and the question text, and ends
      with the closing request; options and answer sit between. */
  lemma PromptLayout(active: map<nat, Asked>, id: nat, ai: AiSettings)
    requires id in active
    ensures var q := active[id];
      var p := GeneratePrompt(active, id, ai);
      && StartsWith(p, PromptHead(ai, q))
      && EndsWith(p, Closing)
      && (|q.options| == 0 && q.correctAnswer == "" ==> p == PromptHead(ai, q) + Closing)
  {
    var q := active[id];
    Framed(PromptHead(ai, q), PromptBody(q), Closing);
  }

  // ----- provider names -----

  function ApiName(apiType: string): (name: string)
    ensures name == "AI" <==> apiType !in {"deepseek", "openai", "gemini", "anthropic"}
  {
    if apiType == "deepseek" then "DeepSeek"
    else if apiType == "openai" then "OpenAI"
    else if apiType == "gemini" then "Gemini"
    else if apiType == "anthropic" then "Claude"
    else "AI"
  }

  /** The four providers have four different names. */
  lemma ApiNamesDistinct(a: string, b: string)
    requires a in {"deepseek", "openai", "gemini", "anthropic"} && b in {"deepseek", "openai", "gemini", "anthropic"}
    ensures ApiName(a) == ApiName(b) <==> a == b
  {
  }

  // ----- writing an answer back -----

  /** A question with the answer, if it is the one asked. */
  function Answered(q: Question, id: nat, answer: string): Question {
    if q.id == Some(id) then q.(aiAnswer := Some(answer)) else q
  }

  /** The inner loop: the first question with the id gets the answer, and
      the loop stops there. */
  function SetFirst(qs: seq<Question>, id: nat, answer: string): (r: seq<Question>)
    ensures |r| == |qs|
  {
    if |qs| == 0 then []
    else if qs[0].id == Some(id) then [qs[0].(aiAnswer := Some(answer))] + qs[1..]
    else [qs[0]] + SetFirst(qs[1..], id, answer)
  }

  /** The outer loop runs over every section: `break` leaves only the
      inner one. */
  function WriteBackSections(sections: seq<Section>, id: nat, answer: string): (r: seq<Section>)
    ensures |r| == |sections|
    ensures forall i :: 0 <= i < |r| ==> r[i].name == sections[i].name
  {
    if |sections| == 0 then []
    else [Section(sections[0].name, SetFirst(sections[0].questions, id, answer))] + WriteBackSections(sections[1..], id, answer)
  }

  /** The record in the table gets the answer too, when there is one. */
  function WriteBackActive(active: map<nat, Asked>, id: nat, answer: string): (r: map<nat, Asked>)
    ensures r.Keys == active.Keys
    ensures id in active ==> r[id] == active[id].(aiAnswer := Some(answer))
    ensures forall k :: k in active && k != id ==> r[k] == active[k]
  {
    if id in active then active[id := active[id].(aiAnswer := Some(answer))] else active
  }

  predicate DistinctIds(qs: seq<Question>) {
    forall i, j :: 0 <= i < j < |qs| && qs[i].id.Some? ==> qs[i].id != qs[j].id
  }

  lemma {:induction false} SetFirstDistinct(qs: seq<Question>, id: nat, answer: string)
    requires DistinctIds(qs)
    ensures forall k :: 0 <= k < |qs| ==> SetFirst(qs, id, answer)[k] == Answered(qs[k], id, answer)
  {
    if |qs| > 0 {
      var r := SetFirst(qs, id, answer);
      if qs[0].id == Some(id) {
        forall k | 1 <= k < |qs| ensures r[k] == Answered(qs[k], id, answer) {
          assert qs[k].id != qs[0].id;
        }
      } else {
        assert DistinctIds(qs[1..]) by {
          forall i, j | 0 <= i < j < |qs[1..]| && qs[1..][i].id.Some?
            ensures qs[1..][i].id != qs[1..][j].id
          {
            assert qs[1..][i] == qs[i + 1] && qs[1..][j] == qs[j + 1];
          }
        }
        SetFirstDistinct(qs[1..], id, answer);
        forall k | 1 <= k < |qs| ensures r[k] == Answered(qs[k], id, answer) {
          assert r[k] == SetFirst(qs[1..], id, answer)[k - 1];
          assert qs[1..][k - 1] == qs[k];
        }
      }
    }
  }

  /** With ids 0 .. N-1, writing back an answer for id `a` changes exactly
      the `a`-th question, and only its AI answer. */
  lemma WriteBackExactlyOne(sections: seq<Section>, id: nat, answer: string)
    requires WellNumbered(sections)
    ensures var es := Entries(sections);
      var rs := Entries(WriteBackSections(sections, id, answer));
      && |rs| == |es|
      && (forall k :: 0 <= k < |es| && k != id ==> rs[k] == es[k])
      && (id < |es| ==> rs[id] == es[id].(question := es[id].question.(aiAnswer := Some(answer))))
  {
    var es := Entries(sections);
    NumberedDistinct(sections);
    WriteBackEntries(sections, id, answer);
    var rs := Entries(WriteBackSections(sections, id, answer));
    forall k | 0 <= k < |es| && k != id ensures rs[k] == es[k] {
      assert es[k].question.id == Some(k);
    }
  }

  predicate DistinctEntryIds(es: seq<Entry>) {
    forall i, j :: 0 <= i < j < |es| && es[i].question.id.Some? ==> es[i].question.id != es[j].question.id
  }

  /** When no id repeats, writing back answers every question carrying the
      id and leaves all others alone. */
  lemma {:induction false} WriteBackEntries(sections: seq<Section>, id: nat, answer: string)
    requires DistinctEntryIds(Entries(sections))
    ensures var es := Entries(sections);
      var rs := Entries(WriteBackSections(sections, id, answer));
      && |rs| == |es|
      && forall k :: 0 <= k < |es| ==> rs[k] == Entry(es[k].section, Answered(es[k].question, id, answer))
  {
    if |sections| > 0 {
      var s := sections[0];
      var es := Entries(sections);
      var head := Tag(s.name, s.questions);
      var tail := Entries(sections[1..]);
      assert es == head + tail;
      assert DistinctIds(s.questions) by {
        forall i, j | 0 <= i < j < |s.questions| && s.questions[i].id.Some?
          ensures s.questions[i].id != s.questions[j].id
        {
          assert es[i].question == s.questions[i] && es[j].question == s.questions[j];
        }
      }
      assert DistinctEntryIds(tail) by {
        forall i, j | 0 <= i < j < |tail| && tail[i].question.id.Some?
          ensures tail[i].question.id != tail[j].question.id
        {
          assert es[|head| + i] == tail[i] && es[|head| + j] == tail[j];
        }
      }
      WriteBackEntries(sections[1..], id, answer);
      SetFirstDistinct(s.questions, id, answer);
      var r := WriteBackSections(sections, id, answer);
      assert r[1..] == WriteBackSections(sections[1..], id, answer);
      var rhead := Tag(s.name, SetFirst(s.questions, id, answer));
      var rtail := Entries(r[1..]);
      assert Entries(r) == rhead + rtail;
      forall k | 0 <= k < |es| ensures Entries(r)[k] == Entry(es[k].section, Answered(es[k].question, id, answer)) {
        if k < |head| {
          assert Entries(r)[k] == rhead[k];
        } else {
          assert Entries(r)[k] == rtail[k - |head|];
          assert es[k] == tail[k - |head|];
        }
      }
    }
  }

  /** Numbered ids never repeat. */
  lemma NumberedDistinct(sections: seq<Section>)
    requires WellNumbered(sections)
    ensures DistinctEntryIds(Entries(sections))
  {
  }
}

=== FILE: render.dfy ===
/** The three document exporters over the flat rows: the Excel sheet (cells
    and column widths) and the Word and PDF documents, the latter two as a
    structure of blocks rather than markup. Rows are grouped by question
    type in order of first appearance; each group numbers its questions
    from 1. */
module Render {
  import opened Wrappers
  import opened Text
  import opened Lines
  import opened Model
  import opened Export

  /** The only failure the exporters report before building anything. */
  datatype ExportError = NoData

  // ----- grouping by type -----

  datatype Group = Group(typeLabel: string, rows: seq<Row>)

  predicate Occurs(rows: seq<Row>, t: string) {
    exists k :: 0 <= k < |rows| && rows[k].typeLabel == t
  }

  /** The rows of type `t`, in order. */
  function OfType(rows: seq<Row>, t: string): (r: seq<Row>)
    ensures |r| <= |rows|
    ensures forall k :: 0 <= k < |r| ==> r[k].typeLabel == t
  {
    if |rows| == 0 then []
    else
      var n := |rows| - 1;
      OfType(rows[..n], t) + (if rows[n].typeLabel == t then [rows[n]] else [])
  }

  /** Where type `t` first appears. */
  function FirstIndex(rows: seq<Row>, t: string): (i: nat)
    requires Occurs(rows, t)
    ensures i < |rows| && rows[i].typeLabel == t
    ensures forall k :: 0 <= k < i ==> rows[k].typeLabel != t
  {
    var n := |rows| - 1;
    if Occurs(rows[..n], t) then FirstIndex(rows[..n], t)
    else n
  }

  /** Position of the group labelled `t`, or `|gs|` when there is none. */
  function GroupIndex(gs: seq<Group>, t: string): (i: nat)
    ensures i <= |gs|
    ensures i < |gs| ==> gs[i].typeLabel == t
    ensures i == |gs| ==> forall k :: 0 <= k < |gs| ==> gs[k].typeLabel != t
  {
    if |gs| == 0 then 0
    else if gs[|gs| - 1].typeLabel == t then |gs| - 1
    else
      var i := GroupIndex(gs[..|gs| - 1], t);
      if i < |gs| - 1 then i else |gs|
  }

  /** One step of the grouping reduce: the row joins the group of its type,
      or opens a new group at the end. */
  function AddRow(gs: seq<Group>, row: Row): seq<Group> {
    var i := GroupIndex(gs, row.typeLabel);
    if i < |gs| then gs[i := Group(gs[i].typeLabel, gs[i].rows + [row])]
    else gs + [Group(row.typeLabel, [row])]
  }

  /** `data.reduce(...)` into an object keyed by type label, read back in
      insertion order. Every label is taken as an ordinary key: one that
      looks like an integer, or names an inherited property, behaves
      otherwise in the script. */
  function GroupByType(rows: seq<Row>): seq<Group> {
    if |rows| == 0 then []
    else
      var n := |rows| - 1;
      AddRow(GroupByType(rows[..n]), rows[n])
  }

  // ----- an independent description of the grouping -----

  predicate Distinct(ls: seq<string>) {
    forall i, j :: 0 <= i < j < |ls| ==> ls[i] != ls[j]
  }

  /** The type labels in order of first appearance. */
  function Labels(rows: seq<Row>): (ls: seq<string>)
    ensures Distinct(ls)
    ensures forall i :: 0 <= i < |ls| ==> Occurs(rows, ls[i])
    ensures forall k :: 0 <= k < |rows| ==> rows[k].typeLabel in ls
  {
    if |rows| == 0 then []
    else
      var n := |rows| - 1;
      var ls := Labels(rows[..n]);
      forall t ensures Occurs(rows[..n], t) ==> Occurs(rows, t) {
        OccursSnoc(rows[..n], rows[n], t);
      }
      assert forall k :: 0 <= k < n ==> rows[..n][k] == rows[k];
      if rows[n].typeLabel in ls then ls else ls + [rows[n].typeLabel]
  }

  /** One group per label, holding exactly the rows of that label. */
  function Grouping(rows: seq<Row>): (gs: seq<Group>)
    ensures |gs| == |Labels(rows)|
  {
    var ls := Labels(rows);
    seq(|ls|, i requires 0 <= i < |ls| => Group(ls[i], OfType(rows, ls[i])))
  }

  lemma OccursSnoc(rows: seq<Row>, row: Row, t: string)
    ensures Occurs(rows + [row], t) <==> Occurs(rows, t) || row.typeLabel == t
  {
    if Occurs(rows, t) {
      var k :| 0 <= k < |rows| && rows[k].typeLabel == t;
      assert (rows + [row])[k] == rows[k];
    }
    if row.typeLabel == t {
      assert (rows + [row])[|rows|] == row;
    }
    if Occurs(rows + [row], t) {
      var k :| 0 <= k < |rows| + 1 && (rows + [row])[k].typeLabel == t;
      if k < |rows| {
        assert rows[k] == (rows + [row])[k];
      }
    }
  }

  /** The reduce builds exactly the grouping: one group per type label, in
      order of first appearance, each holding the rows of that type in
      their original order. */
  lemma {:induction false} GroupByTypeIsGrouping(rows: seq<Row>)
    ensures GroupByType(rows) == Grouping(rows)
  {
    if |rows| > 0 {
      var n := |rows| - 1;
      GroupByTypeIsGrouping(rows[..n]);
      assert rows[..n] + [rows[n]] == rows;
      AddRowToGrouping(rows[..n], rows[n]);
    }
  }

  lemma AddRowToGrouping(pre: seq<Row>, row: Row)
    ensures AddRow(Grouping(pre), row) == Grouping(pre + [row])
  {
    var rows := pre + [row];
    var gs := Grouping(pre);
    var ls := Labels(pre);
    assert rows[..|pre|] == pre;
    var i := GroupIndex(gs, row.typeLabel);
    forall t ensures OfType(rows, t) == OfType(pre, t) + (if row.typeLabel == t then [row] else []) {
    }
    if i < |gs| {
      AddRowToOld(pre, row, i);
    } else {
      AddRowToNew(pre, row);
    }
  }

  lemma AddRowToOld(pre: seq<Row>, row: Row, i: nat)
    requires i < |Grouping(pre)| && Grouping(pre)[i].typeLabel == row.typeLabel
    requires forall t :: OfType(pre + [row], t) == OfType(pre, t) + (if row.typeLabel == t then [row] else [])
    ensures AddRow(Grouping(pre), row) == Grouping(pre + [row])
  {
    var rows := pre + [row];
    var gs := Grouping(pre);
    var ls := Labels(pre);
    assert rows[..|pre|] == pre;
    assert Labels(rows) == ls;
    var r := AddRow(gs, row);
    var want := Grouping(rows);
    assert GroupIndex(gs, row.typeLabel) == i;
    forall k | 0 <= k < |gs| ensures r[k] == want[k] {
      if k != i {
        assert ls[k] != row.typeLabel;
      }
    }
  }

  lemma AddRowToNew(pre: seq<Row>, row: Row)
    requires GroupIndex(Grouping(pre), row.typeLabel) == |Grouping(pre)|
    requires forall t :: OfType(pre + [row], t) == OfType(pre, t) + (if row.typeLabel == t then [row] else [])
    ensures AddRow(Grouping(pre), row) == Grouping(pre + [row])
  {
    var rows := pre + [row];
    var gs := Grouping(pre);
    var ls := Labels(pre);
    NewLabel(pre, row);
    var r := AddRow(gs, row);
    assert r == gs + [Group(row.typeLabel, [row])];
    var want := Grouping(rows);
    assert |want| == |r|;
    forall k | 0 <= k < |r| ensures r[k] == want[k] {
      if k < |gs| {
        var t := ls[k];
        assert OfType(rows, t) == OfType(pre, t) + (if row.typeLabel == t then [row] else []);
        assert r[k] == Group(t, OfType(pre, t));
      } else {
        var t := row.typeLabel;
        assert OfType(rows, t) == OfType(pre, t) + (if row.typeLabel == t then [row] else []);
      }
    }
  }

  /** A label the grouping has no group for is new: it comes last among the
      labels, and no earlier row has it. */
  lemma NewLabel(pre: seq<Row>, row: Row)
    requires GroupIndex(Grouping(pre), row.typeLabel) == |Grouping(pre)|
    ensures Labels(pre + [row]) == Labels(pre) + [row.typeLabel]
    ensures forall k :: 0 <= k < |Labels(pre)| ==> Labels(pre)[k] != row.typeLabel
    ensures OfType(pre, row.typeLabel) == []
  {
    var rows := pre + [row];
    var gs := Grouping(pre);
    var ls := Labels(pre);
    assert rows[..|pre|] == pre;
    forall k | 0 <= k < |ls| ensures ls[k] != row.typeLabel {
      assert gs[k].typeLabel == ls[k];
    }
    assert !Occurs(pre, row.typeLabel);
    OfTypeEmpty(pre, row.typeLabel);
  }


  lemma {:induction false} OfTypeEmpty(rows: seq<Row>, t: string)
    requires !Occurs(rows, t)
    ensures OfType(rows, t) == []
  {
    if |rows| > 0 {
      var n := |rows| - 1;
      OfTypeEmpty(rows[..n], t);
    }
  }

  /** Groups come in order of the first row of each type. */
  lemma {:induction false} LabelsInFirstOccurrenceOrder(rows: seq<Row>, i: nat, j: nat)
    requires i < j < |Labels(rows)|
    ensures FirstIndex(rows, Labels(rows)[i]) < FirstIndex(rows, Labels(rows)[j])
  {
    var n := |rows| - 1;
    var pre := rows[..n];
    var ls := Labels(pre);
    assert pre + [rows[n]] == rows;
    var t := rows[n].typeLabel;
    assert rows[..n] == pre;
    assert Labels(rows) == if t in ls then ls else ls + [t];
    var a := Labels(rows)[i];
    var b := Labels(rows)[j];
    assert a == ls[i] && Occurs(pre, a);
    FirstIndexSnoc(pre, rows[n], a);
    if j < |ls| {
      assert b == ls[j];
      LabelsInFirstOccurrenceOrder(pre, i, j);
      FirstIndexSnoc(pre, rows[n], b);
    } else {
      assert b == t && t !in ls;
      assert !Occurs(pre, t);
      FirstIndexNew(pre, rows[n]);
    }
  }

  lemma FirstIndexSnoc(rows: seq<Row>, row: Row, t: string)
    requires Occurs(rows, t)
    ensures Occurs(rows + [row], t) && FirstIndex(rows + [row], t) == FirstIndex(rows, t)
  {
    OccursSnoc(rows, row, t);
    assert (rows + [row])[..|rows|] == rows;
  }

  lemma FirstIndexNew(rows: seq<Row>, row: Row)
    requires !Occurs(rows, row.typeLabel)
    ensures Occurs(rows + [row], row.typeLabel) && FirstIndex(rows + [row], row.typeLabel) == |rows|
  {
    OccursSnoc(rows, row, row.typeLabel);
    assert (rows + [row])[..|rows|] == rows;
  }

  /** The total number of rows over all groups. */
  function Size(gs: seq<Group>): nat {
    if |gs| == 0 then 0 else Size(gs[..|gs| - 1]) + |gs[|gs| - 1].rows|
  }

  lemma {:induction false} SizeUpdate(gs: seq<Group>, i: nat, g: Group)
    requires i < |gs|
    ensures Size(gs[i := g]) == Size(gs) - |gs[i].rows| + |g.rows|
  {
    var n := |gs| - 1;
    if i < n {
      assert gs[i := g][..n] == gs[..n][i := g];
      SizeUpdate(gs[..n], i, g);
    } else {
      assert gs[i := g][..n] == gs[..n];
    }
  }

  /** Grouping neither drops nor duplicates rows. */
  lemma {:induction false} GroupingKeepsEveryRow(rows: seq<Row>)
    ensures Size(GroupByType(rows)) == |rows|
  {
    if |rows| > 0 {
      var n := |rows| - 1;
      GroupingKeepsEveryRow(rows[..n]);
      var gs := GroupByType(rows[..n]);
      var i := GroupIndex(gs, rows[n].typeLabel);
      if i < |gs| {
        SizeUpdate(gs, i, Group(gs[i].typeLabel, gs[i].rows + [rows[n]]));
      } else {
        assert (gs + [Group(rows[n].typeLabel, [rows[n]])])[..|gs|] == gs;
      }
    }
  }

  // ----- the Excel sheet -----

  /** The column keys, in the order every row object lists them. */
  const ExcelKeys: seq<string> := ["题目类型", "题目", "选项", "我的答案", "正确答案", "是否正确", "题目解析", "aiAnswer", "图片"]

  /** The image column before the sheet is built: a missing list stays
      empty, a list becomes its count. */
  function ImageCell(images: Option<seq<Image>>): string {
    match images
    case None => ""
    case Some(xs) => if |xs| > 0 then "包含" + NatToString(|xs|) + "张图片" else "无图片"
  }

  /** One sheet row: the cells under `ExcelKeys`, with a missing AI answer
      written as the empty cell (`String(v || '')`). */
  function ExcelCells(row: Row): (cells: seq<string>)
    ensures |cells| == |ExcelKeys|
  {
    [row.typeLabel, row.question, row.options, row.myAnswer, row.correctAnswer,
     row.marker, row.explanation, row.aiAnswer.GetOr(""), ImageCell(row.images)]
  }

  /** The longest line among all the values of a column. */
  function WidestLine(values: seq<string>): (w: nat)
    ensures forall k, l :: 0 <= k < |values| && 0 <= l < |Split(values[k], '\n')| ==> |Split(values[k], '\n')[l]| <= w
    ensures w == 0 || exists k :: 0 <= k < |values| && LongestLength(Split(values[k], '\n')) == w
  {
    if |values| == 0 then 0
    else
      var n := |values| - 1;
      var front := WidestLine(values[..n]);
      assert forall k :: 0 <= k < n ==> values[..n][k] == values[k];
      assert forall k, l :: 0 <= k < n && 0 <= l < |Split(values[k], '\n')| ==> |Split(values[k], '\n')[l]| <= front;
      Max(front, LongestLength(Split(values[n], '\n')))
  }

  /** The cap on a column's width, in characters. */
  const MaxColumnWidth := 50

  /** What makes `w` the width of the column `col` under `key`: within the
      cap; unless capped, two wider than the key and than every line, and
      equal to one of those plus two; capped only when the key or some line
      reaches the cap. */
  predicate ColumnSized(w: nat, key: string, col: seq<string>) {
    && w <= MaxColumnWidth
    && (w == MaxColumnWidth || w >= |key| + 2)
    && (forall k, l :: 0 <= k < |col| && 0 <= l < |Split(col[k], '\n')| ==>
          w == MaxColumnWidth || |Split(col[k], '\n')[l]| + 2 <= w)
    && (w == MaxColumnWidth || w == |key| + 2 || exists k :: 0 <= k < |col| && LongestLength(Split(col[k], '\n')) + 2 == w)
    && (w == MaxColumnWidth ==>
          |key| + 2 >= MaxColumnWidth || exists k :: 0 <= k < |col| && LongestLength(Split(col[k], '\n')) + 2 >= MaxColumnWidth)
  }

  /** At most one width sizes a column, so `ColumnSized` pins it down. */
  lemma ColumnSizedUnique(w1: nat, w2: nat, key: string, col: seq<string>)
    requires ColumnSized(w1, key, col) && ColumnSized(w2, key, col)
    ensures w1 == w2
  {
    ColumnSizedLongest(w1, key, col);
    ColumnSizedLongest(w2, key, col);
  }

  /** An uncapped width is at least every value's longest line plus two. */
  lemma ColumnSizedLongest(w: nat, key: string, col: seq<string>)
    requires ColumnSized(w, key, col)
    ensures w == MaxColumnWidth || forall k :: 0 <= k < |col| ==> LongestLength(Split(col[k], '\n')) + 2 <= w
  {
    if w != MaxColumnWidth {
      forall k | 0 <= k < |col|
        ensures LongestLength(Split(col[k], '\n')) + 2 <= w
      {
        LongestIsALine(Split(col[k], '\n'), k, col, w);
      }
    }
  }

  /** A width that every line of `col[k]` fits is at least that value's
      longest line plus two. */
  lemma LongestIsALine(lines: seq<string>, k: nat, col: seq<string>, w: nat)
    requires k < |col| && lines == Split(col[k], '\n')
    requires forall l :: 0 <= l < |lines| ==> |lines[l]| + 2 <= w
    ensures LongestLength(lines) + 2 <= w
  {
    if LongestLength(lines) != 0 {
      var l :| 0 <= l < |lines| && |lines[l]| == LongestLength(lines);
    }
  }

  /** A column is two characters wider than its longest line or its key,
      whichever is longer, and never wider than the cap. */
  function ColumnWidth(key: string, values: seq<string>): (w: nat)
    ensures ColumnSized(w, key, values)
  {
    Min(Max(WidestLine(values), |key|) + 2, MaxColumnWidth)
  }

  /** The values of column `c` over the rows, top to bottom. */
  function ExcelColumn(rows: seq<Row>, c: nat): (col: seq<string>)
    requires c < |ExcelKeys|
    ensures |col| == |rows| && forall i :: 0 <= i < |rows| ==> col[i] == ExcelCells(rows[i])[c]
  {
    seq(|rows|, i requires 0 <= i < |rows| => ExcelCells(rows[i])[c])
  }

  datatype Sheet = Sheet(header: seq<string>, cells: seq<seq<string>>, widths: seq<nat>)

  /** The sheet of the rows; no rows is the no-data error and no file.
      Otherwise row i of the sheet holds the cells of row i, and each
      column is sized by its key and the lines of its cells. */
  function ExcelSheet(rows: seq<Row>): (r: Result<Sheet, ExportError>)
    ensures r.Failure? <==> |rows| == 0
    ensures r.Success? ==> |r.value.cells| == |rows| && |r.value.widths| == |ExcelKeys|
    ensures r.Success? ==> r.value.header == ExcelKeys
    ensures r.Success? ==> forall i :: 0 <= i < |rows| ==> r.value.cells[i] == ExcelCells(rows[i])
    ensures r.Success? ==> forall c :: 0 <= c < |ExcelKeys| ==> ColumnSized(r.value.widths[c], ExcelKeys[c], ExcelColumn(rows, c))
  {
    if |rows| == 0 then Failure(NoData)
    else
      var cells := seq(|rows|, i requires 0 <= i < |rows| => ExcelCells(rows[i]));
      var widths := seq(|ExcelKeys|, c requires 0 <= c < |ExcelKeys| => ColumnWidth(ExcelKeys[c], ExcelColumn(rows, c)));
      Success(Sheet(ExcelKeys, cells, widths))
  }

  /** The image column of an exported question reads "包含N张图片" with N its
      number of images, or is empty when it has none; "无图片" never
      appears, since an empty list is exported as null. */
  lemma ExcelImageColumn(e: Entry, hidden: bool)
    ensures var cell := ExcelCells(RowOf(e, hidden))[8];
      && (|e.question.images| == 0 <==> cell == "")
      && (|e.question.images| > 0 ==>
            && StartsWith(cell, "包含") && EndsWith(cell, "张图片")
            && AllDigits(cell[2..|cell| - 3]) && DigitsValue(cell[2..|cell| - 3]) == |e.question.images|)
      && cell != "无图片"
  {
    var n := |e.question.images|;
    RowFields(e, hidden);
    if n > 0 {
      var cell := ExcelCells(RowOf(e, hidden))[8];
      assert cell == "包含" + NatToString(n) + "张图片";
      assert cell[2..|cell| - 3] == NatToString(n);
      NatToStringValue(n);
    }
  }

  // ----- HTML escaping -----

  /** `s.replace(/c/g, rep)` for one character. */
  function ReplaceChar(s: string, c: char, rep: string): string {
    if |s| == 0 then ""
    else
      var n := |s| - 1;
      ReplaceChar(s[..n], c, rep) + (if s[n] == c then rep else [s[n]])
  }

  /** Nothing to replace, nothing changes. */
  lemma {:induction false} ReplaceCharFree(s: string, c: char, rep: string)
    requires Free(s, c)
    ensures ReplaceChar(s, c, rep) == s
  {
    if |s| > 0 {
      var n := |s| - 1;
      ReplaceCharFree(s[..n], c, rep);
      assert s[..n] + [s[n]] == s;
    }
  }

  /** A replacement free of the character leaves none of it behind. */
  lemma {:induction false} ReplaceCharRemoves(s: string, c: char, rep: string)
    requires Free(rep, c)
    ensures Free(ReplaceChar(s, c, rep), c)
  {
    if |s| > 0 {
      ReplaceCharRemoves(s[..|s| - 1], c, rep);
    }
  }

  lemma {:induction false} ReplaceCharAppend(a: string, b: string, c: char, rep: string)
    ensures ReplaceChar(a + b, c, rep) == ReplaceChar(a, c, rep) + ReplaceChar(b, c, rep)
  {
    if |b| > 0 {
      var n := |b| - 1;
      assert (a + b)[..|a| + n] == a + b[..n];
      assert (a + b)[|a| + n] == b[n];
      ReplaceCharAppend(a, b[..n], c, rep);
    } else {
      assert a + b == a;
    }
  }

  /** The escaping stages of `formatAnswer`, in their order. */
  function EscapeStages(s: string): string {
    ReplaceChar(ReplaceChar(ReplaceChar(ReplaceChar(s, '&', "&amp;"), '<', "&lt;"), '>', "&gt;"), '\n', "<br>")
  }

  /** `formatAnswer` up to its Markdown rewrites: empty stays empty, and
      otherwise the escaping stages. */
  function FormatAnswer(answer: string): string {
    if answer == "" then "" else EscapeStages(answer)
  }

  /** What each character becomes. */
  function EscapeChar(c: char): string {
    if c == '&' then "&amp;"
    else if c == '<' then "&lt;"
    else if c == '>' then "&gt;"
    else if c == '\n' then "<br>"
    else [c]
  }

  /** Character-by-character escaping. */
  function Escape(s: string): string {
    if |s| == 0 then "" else EscapeChar(s[0]) + Escape(s[1..])
  }

  lemma EscapeStagesAppend(a: string, b: string)
    ensures EscapeStages(a + b) == EscapeStages(a) + EscapeStages(b)
  {
    var s1a, s1b := ReplaceChar(a, '&', "&amp;"), ReplaceChar(b, '&', "&amp;");
    ReplaceCharAppend(a, b, '&', "&amp;");
    var s2a, s2b := ReplaceChar(s1a, '<', "&lt;"), ReplaceChar(s1b, '<', "&lt;");
    ReplaceCharAppend(s1a, s1b, '<', "&lt;");
    var s3a, s3b := ReplaceChar(s2a, '>', "&gt;"), ReplaceChar(s2b, '>', "&gt;");
    ReplaceCharAppend(s2a, s2b, '>', "&gt;");
    ReplaceCharAppend(s3a, s3b, '\n', "<br>");
  }

  lemma ReplaceOne(x: char, c: char, rep: string)
    ensures ReplaceChar([x], c, rep) == if x == c then rep else [x]
  {
    assert [x][..0] == "";
  }

  /** No entity holds a character a later stage replaces. */
  lemma EntitiesFree()
    ensures Free("&amp;", '<') && Free("&amp;", '>') && Free("&amp;", '\n')
    ensures Free("&lt;", '>') && Free("&lt;", '\n')
    ensures Free("&gt;", '\n')
  {
    assert "&amp;" == ['&', 'a', 'm', 'p', ';'];
    assert "&lt;" == ['&', 'l', 't', ';'];
    assert "&gt;" == ['&', 'g', 't', ';'];
  }

  lemma EscapeStagesChar(c: char)
    ensures EscapeStages([c]) == EscapeChar(c)
  {
    EntitiesFree();
    ReplaceOne(c, '&', "&amp;");
    if c == '&' {
      ReplaceCharFree("&amp;", '<', "&lt;");
      ReplaceCharFree("&amp;", '>', "&gt;");
      ReplaceCharFree("&amp;", '\n', "<br>");
    } else {
      ReplaceOne(c, '<', "&lt;");
      if c == '<' {
        ReplaceCharFree("&lt;", '>', "&gt;");
        ReplaceCharFree("&lt;", '\n', "<br>");
      } else {
        ReplaceOne(c, '>', "&gt;");
        if c == '>' {
          ReplaceCharFree("&gt;", '\n', "<br>");
        } else {
          ReplaceOne(c, '\n', "<br>");
        }
      }
    }
  }

  /** The escaping stages act character by character. */
  lemma {:induction false} EscapeStagesEscape(s: string)
    ensures EscapeStages(s) == Escape(s)
  {
    if |s| == 0 {
      assert ReplaceChar(s, '&', "&amp;") == "";
    } else {
      var rest := s[1..];
      assert s == [s[0]] + rest;
      EscapeStagesAppend([s[0]], rest);
      EscapeStagesChar(s[0]);
      EscapeStagesEscape(rest);
    }
  }

  /** The four global replacements in sequence act character by
      character: no stage rewrites what an earlier one produced. */
  lemma FormatAnswerEscapes(s: string)
    ensures FormatAnswer(s) == Escape(s)
  {
    if |s| > 0 {
      EscapeStagesEscape(s);
    }
  }

  /** Reads entities back. */
  function Unescape(s: string): string
    decreases |s|
  {
    if |s| == 0 then ""
    else if StartsWith(s, "&amp;") then "&" + Unescape(s[5..])
    else if StartsWith(s, "&lt;") then "<" + Unescape(s[4..])
    else if StartsWith(s, "&gt;") then ">" + Unescape(s[4..])
    else if StartsWith(s, "<br>") then "\n" + Unescape(s[4..])
    else [s[0]] + Unescape(s[1..])
  }

  lemma UnescapeStep(c: char, t: string)
    ensures Unescape(EscapeChar(c) + t) == [c] + Unescape(t)
  {
    if c == '&' {
      UnescapeAmp(t);
    } else if c == '<' {
      UnescapeLt(t);
    } else if c == '>' {
      UnescapeGt(t);
    } else if c == '\n' {
      UnescapeBr(t);
    } else {
      var s := [c] + t;
      assert s[0] == c && s[1..] == t;
    }
  }

  lemma UnescapeAmp(t: string)
    ensures Unescape("&amp;" + t) == "&" + Unescape(t)
  {
    var s := "&amp;" + t;
    assert s[..5] == "&amp;" && s[5..] == t;
  }

  lemma UnescapeLt(t: string)
    ensures Unescape("&lt;" + t) == "<" + Unescape(t)
  {
    var s := "&lt;" + t;
    assert s[1] == 'l';
    DiffersAt(s, "&amp;", 1);
    assert s[..4] == "&lt;" && s[4..] == t;
  }

  lemma UnescapeGt(t: string)
    ensures Unescape("&gt;" + t) == ">" + Unescape(t)
  {
    var s := "&gt;" + t;
    assert s[1] == 'g';
    DiffersAt(s, "&amp;", 1);
    DiffersAt(s, "&lt;", 1);
    assert s[..4] == "&gt;" && s[4..] == t;
  }

  lemma UnescapeBr(t: string)
    ensures Unescape("<br>" + t) == "\n" + Unescape(t)
  {
    var s := "<br>" + t;
    assert s[0] == '<';
    DiffersAt(s, "&amp;", 0);
    DiffersAt(s, "&lt;", 0);
    DiffersAt(s, "&gt;", 0);
    assert s[..4] == "<br>" && s[4..] == t;
  }

  /** A text that differs from a pattern at some position does not start
      with it. */
  lemma DiffersAt(s: string, p: string, i: nat)
    requires i < |p| && i < |s| && s[i] != p[i]
    ensures !StartsWith(s, p)
  {
    if |p| <= |s| {
      assert s[..|p|][i] == s[i];
    }
  }

  /** The escaping stages lose nothing: the answer can be read back from
      their output. The later Markdown rewrites are outside this lemma. */
  lemma {:induction false} FormatAnswerRoundTrip(s: string)
    ensures Unescape(FormatAnswer(s)) == s
  {
    FormatAnswerEscapes(s);
    EscapeRoundTrip(s);
  }

  lemma {:induction false} EscapeRoundTrip(s: string)
    ensures Unescape(Escape(s)) == s
  {
    if |s| > 0 {
      UnescapeStep(s[0], Escape(s[1..]));
      EscapeRoundTrip(s[1..]);
      assert [s[0]] + s[1..] == s;
    }
  }

  /** `alt.replace(/"/g, "&quot;")`. */
  function EscapeQuotes(s: string): (r: string)
    ensures Free(r, '"')
    ensures Free(s, '"') ==> r == s
  {
    ReplaceCharRemoves(s, '"', "&quot;");
    assert Free(s, '"') ==> ReplaceChar(s, '"', "&quot;") == s by {
      if Free(s, '"') {
        ReplaceCharFree(s, '"', "&quot;");
      }
    }
    ReplaceChar(s, '"', "&quot;")
  }

  /** Quotes are escaped one character at a time: each quote becomes
      "&quot;" and everything else is kept, in order. */
  lemma EscapeQuotesAppend(a: string, b: string)
    ensures EscapeQuotes(a + b) == EscapeQuotes(a) + EscapeQuotes(b)
    ensures EscapeQuotes(['"']) == "&quot;"
    ensures forall c :: c != '"' ==> EscapeQuotes([c]) == [c]
  {
    ReplaceCharAppend(a, b, '"', "&quot;");
    assert ['"'][..0] == [];
    forall c | c != '"'
      ensures EscapeQuotes([c]) == [c]
    {
      assert [c][..0] == [];
    }
  }

  // ----- Word and PDF blocks -----

  /** One embedded image: the source is the fetched data when there is
      some, else the page URL. */
  datatype Figure = Figure(src: string, alt: string)

  const DefaultAlt := "题目图片"

  function SourceOf(img: Image): string {
    if img.data.Some? && img.data.value != "" then img.data.value else img.src
  }

  /** The alt text defaults when empty and has its quotes escaped. */
  function FigureOf(img: Image): Figure {
    Figure(SourceOf(img), EscapeQuotes(if img.alt != "" then img.alt else DefaultAlt))
  }

  /** A figure shows its image's source; its alt text is the default when
      the image has none, and the image's own alt when that holds no quote. */
  lemma FigureOfAlt(img: Image)
    ensures FigureOf(img).src == SourceOf(img)
    ensures img.alt == "" ==> FigureOf(img).alt == DefaultAlt
    ensures img.alt != "" && Free(img.alt, '"') ==> FigureOf(img).alt == img.alt
  {
    DefaultAltFree();
  }

  lemma DefaultAltFree()
    ensures Free(DefaultAlt, '"')
  {
    assert DefaultAlt == ['题', '目', '图', '片'];
  }

  /** The figures of an image list; an image with no source is skipped. */
  function Figures(imgs: seq<Image>): (fs: seq<Figure>)
    ensures |fs| <= |imgs|
    ensures forall i :: 0 <= i < |fs| ==> fs[i].src != "" && Free(fs[i].alt, '"')
  {
    if |imgs| == 0 then []
    else
      var n := |imgs| - 1;
      var front := Figures(imgs[..n]);
      assert forall k :: 0 <= k < n ==> imgs[..n][k] == imgs[k];
      if SourceOf(imgs[n]) == "" then front else front + [FigureOf(imgs[n])]
  }

  /** When every image has a source, each gives exactly its own figure, in
      order. */
  lemma {:induction false} FiguresOfResolved(imgs: seq<Image>)
    requires forall k :: 0 <= k < |imgs| ==> SourceOf(imgs[k]) != ""
    ensures |Figures(imgs)| == |imgs|
    ensures forall k :: 0 <= k < |imgs| ==> Figures(imgs)[k] == FigureOf(imgs[k])
  {
    if |imgs| > 0 {
      var n := |imgs| - 1;
      var pre := imgs[..n];
      assert forall k :: 0 <= k < n ==> pre[k] == imgs[k];
      FiguresOfResolved(pre);
      FiguresSnoc(imgs);
      assert imgs == pre + [imgs[n]];
      FiguresPointwiseSnoc(Figures(pre), pre, imgs[n]);
    }
  }

  lemma FiguresPointwiseSnoc(front: seq<Figure>, pre: seq<Image>, img: Image)
    requires |front| == |pre| && forall k :: 0 <= k < |pre| ==> front[k] == FigureOf(pre[k])
    ensures forall k :: 0 <= k < |pre| + 1 ==> (front + [FigureOf(img)])[k] == FigureOf((pre + [img])[k])
  {
    forall k | 0 <= k < |pre| + 1
      ensures (front + [FigureOf(img)])[k] == FigureOf((pre + [img])[k])
    {
      if k < |pre| {
        assert (front + [FigureOf(img)])[k] == front[k];
        assert (pre + [img])[k] == pre[k];
      }
    }
  }

  /** No figure is written exactly when no image has a source. */
  lemma {:induction false} FiguresEmpty(imgs: seq<Image>)
    ensures |Figures(imgs)| == 0 <==> forall k :: 0 <= k < |imgs| ==> SourceOf(imgs[k]) == ""
  {
    if |imgs| > 0 {
      var n := |imgs| - 1;
      var pre := imgs[..n];
      assert forall k :: 0 <= k < n ==> pre[k] == imgs[k];
      FiguresEmpty(pre);
    }
  }

  lemma FiguresSnoc(imgs: seq<Image>)
    requires |imgs| > 0 && SourceOf(imgs[|imgs| - 1]) != ""
    ensures Figures(imgs) == Figures(imgs[..|imgs| - 1]) + [FigureOf(imgs[|imgs| - 1])]
  {
  }

  /** The block of one question: each part is present exactly when the
      renderer writes it. */
  datatype QuestionBlock = QuestionBlock(
    title: string,
    figures: seq<Figure>,
    options: Option<seq<string>>,
    myAnswer: Option<string>,
    correctAnswer: Option<string>,
    mismatch: bool,
    explanation: Option<string>,
    aiAnswer: Option<string>)

  function BlockOf(row: Row, index: nat, hidden: bool, showExplanation: bool): QuestionBlock {
    QuestionBlock(
      ProcessTitle(row.question, index),
      if row.images.Some? then Figures(row.images.value) else [],
      if row.options != "" then Some(NonBlank(Split(row.options, '\n'))) else None,
      if !hidden then Some(ProcessAnswer(row.myAnswer)) else None,
      if row.correctAnswer != "" then Some(ProcessAnswer(row.correctAnswer)) else None,
      !hidden && row.marker == Wrong,
      if showExplanation && row.explanation != "" && row.explanation != NoExplanation then Some(row.explanation) else None,
      if row.aiAnswer.Some? && row.aiAnswer.value != "" then Some(FormatAnswer(row.aiAnswer.value)) else None)
  }

  /** The block of an exported question, in terms of the question itself. */
  lemma BlockOfEntry(e: Entry, index: nat, hidden: bool, showExplanation: bool)
    requires forall k :: 0 <= k < |e.question.options| ==> e.question.options[k] != "" && Free(e.question.options[k], '\n')
    ensures var q := e.question;
      var b := BlockOf(RowOf(e, hidden), index, hidden, showExplanation);
      && HasNumbering(b.title)
      && (b.options.None? <==> |q.options| == 0)
      && (b.options.Some? ==> b.options.value == NonBlank(q.options))
      && (b.myAnswer.Some? <==> !hidden)
      && (!hidden ==> b.myAnswer == Some(ProcessAnswer(q.myAnswer)))
      && (b.correctAnswer.Some? <==> q.correctAnswer != "")
      && (b.mismatch <==> !hidden && q.myAnswer != q.correctAnswer)
      && (b.explanation.Some? <==> showExplanation && q.explanation != "" && q.explanation != NoExplanation)
      && (b.explanation.Some? ==> b.explanation.value == q.explanation)
      && (b.aiAnswer.Some? <==> q.aiAnswer.Some? && q.aiAnswer.value != "")
      && (b.aiAnswer.Some? ==> Unescape(b.aiAnswer.value) == q.aiAnswer.value)
  {
    var q := e.question;
    RowFields(e, hidden);
    JoinEmpty(q.options, '\n');
    if |q.options| > 0 {
      SplitJoin(q.options, '\n');
    }
    if q.aiAnswer.Some? {
      FormatAnswerRoundTrip(q.aiAnswer.value);
    }
  }

  datatype GroupBlock = GroupBlock(heading: string, questions: seq<QuestionBlock>)

  datatype Document = Document(title: string, groups: seq<GroupBlock>)

  /** The questions of one group, numbered from 1 within the group. */
  function GroupBlockOf(g: Group, hidden: bool, showExplanation: bool): (b: GroupBlock)
    ensures b.heading == g.typeLabel && |b.questions| == |g.rows|
    ensures forall i :: 0 <= i < |g.rows| ==> b.questions[i] == BlockOf(g.rows[i], i, hidden, showExplanation)
  {
    GroupBlock(g.typeLabel, seq(|g.rows|, i requires 0 <= i < |g.rows| => BlockOf(g.rows[i], i, hidden, showExplanation)))
  }

  function Body(rows: seq<Row>, hidden: bool, showExplanation: bool): (bs: seq<GroupBlock>)
    ensures |bs| == |GroupByType(rows)|
    ensures forall i :: 0 <= i < |bs| ==> bs[i] == GroupBlockOf(GroupByType(rows)[i], hidden, showExplanation)
  {
    var gs := GroupByType(rows);
    seq(|gs|, i requires 0 <= i < |gs| => GroupBlockOf(gs[i], hidden, showExplanation))
  }

  /** `s.replace(pat, '')` with a string pattern: only the first
      occurrence goes. */
  function RemoveFirst(s: string, pat: string): (r: string)
    ensures !Contains(s, pat) ==> r == s
    ensures |r| <= |s|
    decreases |s|
  {
    if |pat| > |s| then s
    else if s[..|pat|] == pat then s[|pat|..]
    else [s[0]] + RemoveFirst(s[1..], pat)
  }

  /** With a non-empty pattern, exactly the first occurrence is cut out and
      the text around it is kept. */
  lemma {:induction false} RemoveFirstAt(s: string, pat: string, i: nat)
    requires |pat| > 0 && OccursAt(s, pat, i)
    requires forall j :: 0 <= j < i ==> !OccursAt(s, pat, j)
    ensures RemoveFirst(s, pat) == s[..i] + s[i + |pat|..]
    decreases i
  {
    if i == 0 {
      assert s[..|pat|] == pat;
    } else {
      assert !OccursAt(s, pat, 0);
      assert s[..|pat|] != pat;
      var t := s[1..];
      assert t[i - 1..i - 1 + |pat|] == s[i..i + |pat|];
      forall j | 0 <= j < i - 1
        ensures !OccursAt(t, pat, j)
      {
        assert !OccursAt(s, pat, j + 1);
        if j + |pat| <= |t| {
          assert t[j..j + |pat|] == s[j + 1..j + 1 + |pat|];
        }
      }
      RemoveFirstAt(t, pat, i - 1);
      assert [s[0]] + t[..i - 1] == s[..i];
      assert t[i - 1 + |pat|..] == s[i + |pat|..];
    }
  }

  /** An extension whose only dot is its first character. */
  predicate Extension(ext: string) {
    |ext| >= 1 && ext[0] == '.' && forall i :: 1 <= i < |ext| ==> ext[i] != '.'
  }

  /** Removing the extension from a name that ends with it, and holds it
      nowhere else, gives back the name. */
  lemma {:induction false} RemoveExtension(base: string, ext: string)
    requires Extension(ext) && !Contains(base, ext)
    ensures RemoveFirst(base + ext, ext) == base
    decreases |base|
  {
    var s := base + ext;
    if |base| == 0 {
      assert s[..|ext|] == ext;
    } else {
      if |base| >= |ext| {
        assert s[..|ext|] == base[..|ext|];
      } else {
        assert s[|base|] == ext[0];
        assert s[..|ext|] != ext;
      }
      assert !Contains(base[1..], ext);
      assert s[1..] == base[1..] + ext;
      RemoveExtension(base[1..], ext);
    }
  }

  /** The Word document: titled by the file name without ".docx"; no rows
      is the no-data error. */
  function WordDocument(rows: seq<Row>, filename: string, hidden: bool, showExplanation: bool): (r: Result<Document, ExportError>)
    ensures r.Failure? <==> |rows| == 0
  {
    if |rows| == 0 then Failure(NoData)
    else Success(Document(RemoveFirst(filename, ".docx"), Body(rows, hidden, showExplanation)))
  }

  /** The PDF document: titled by the custom title if there is one, else
      by the file name without ".pdf". */
  function PdfDocument(rows: seq<Row>, filename: string, customTitle: string, hidden: bool, showExplanation: bool): (r: Result<Document, ExportError>)
    ensures r.Failure? <==> |rows| == 0
  {
    if |rows| == 0 then Failure(NoData)
    else
      var title := if customTitle != "" then customTitle else RemoveFirst(filename, ".pdf");
      Success(Document(title, Body(rows, hidden, showExplanation)))
  }

  /** For the file name the exporter passes (the base name plus the
      extension), the document titles are the base name, unless the base
      name itself holds the extension; the PDF prefers a custom title. */
  lemma DocumentTitles(rows: seq<Row>, base: string, customTitle: string, hidden: bool, showExplanation: bool)
    requires |rows| > 0
    ensures !Contains(base, ".docx") ==> WordDocument(rows, base + ".docx", hidden, showExplanation).value.title == base
    ensures customTitle != "" ==> PdfDocument(rows, base + ".pdf", customTitle, hidden, showExplanation).value.title == customTitle
    ensures customTitle == "" && !Contains(base, ".pdf") ==> PdfDocument(rows, base + ".pdf", customTitle, hidden, showExplanation).value.title == base
  {
    ExportExtensions();
    if !Contains(base, ".docx") {
      RemoveExtension(base, ".docx");
    }
    if !Contains(base, ".pdf") {
      RemoveExtension(base, ".pdf");
    }
  }

  /** Both exporters' extensions have a single leading dot. */
  lemma ExportExtensions()
    ensures Extension(".docx") && Extension(".pdf")
  {
    assert ".docx" == ['.', 'd', 'o', 'c', 'x'];
    assert ".pdf" == ['.', 'p', 'd', 'f'];
  }

  /** Every row appears in exactly one place: in its type's group, at its
      position among the rows of that type. */
  lemma DocumentHoldsEveryRow(rows: seq<Row>, hidden: bool, showExplanation: bool)
    ensures var bs := Body(rows, hidden, showExplanation);
      && |bs| == |Labels(rows)|
      && (forall i :: 0 <= i < |bs| ==> bs[i].heading == Labels(rows)[i])
      && (forall i :: 0 <= i < |bs| ==> |bs[i].questions| == |OfType(rows, Labels(rows)[i])|)
      && (forall i, j :: 0 <= i < |bs| && 0 <= j < |bs[i].questions| ==>
            bs[i].questions[j] == BlockOf(OfType(rows, Labels(rows)[i])[j], j, hidden, showExplanation))
  {
    GroupByTypeIsGrouping(rows);
  }
}

=== FILE: selection.dfy ===
/** The selection of questions for export: a set of ids plus the anchor of
    the last plain click, over the ids 0 .. n-1 of the displayed list. The
    checkbox state of a question always equals its membership in the set,
    so a click turns the clicked checkbox to "not selected before". */
module Selection {
  import opened Wrappers
  import opened Model

  datatype SelState = SelState(selected: set<nat>, anchor: Option<nat>)

  /** Only ids of the displayed list are selected, and the anchor is one of them. */
  predicate Valid(s: SelState, n: nat) {
    && (forall id :: id in s.selected ==> id < n)
    && (s.anchor.Some? ==> s.anchor.value < n)
  }

  /** Redisplay empties the selection and forgets the anchor. */
  function Cleared(): (s: SelState)
    ensures s.selected == {} && s.anchor.None?
    ensures forall n: nat :: Valid(s, n)
  {
    SelState({}, None)
  }

  /** The ids of a displayed list of `n` questions, in checkbox order. */
  function Ids(n: nat): (r: seq<nat>)
    ensures |r| == n
    ensures forall k :: 0 <= k < n ==> r[k] == k
    ensures forall k: int :: k in r <==> 0 <= k < n
  {
    var r := seq(n, k => k);
    IdsMembers(r, n);
    r
  }

  lemma IdsMembers(r: seq<nat>, n: nat)
    requires |r| == n && forall k :: 0 <= k < n ==> r[k] == k
    ensures forall k: int :: k in r <==> 0 <= k < n
  {
    forall k: int | 0 <= k < n
      ensures k in r
    {
      assert r[k] == k;
    }
  }

  /** The ids from `lo` to `hi` inclusive. */
  function Span(lo: nat, hi: nat): (r: set<nat>)
    ensures forall k :: k in r <==> lo <= k <= hi
  {
    var ids := Ids(hi + 1);
    set k | k in ids && lo <= k
  }

  /** A click on the checkbox of `id`. With shift held and an anchor present,
      every id between the anchor and `id` takes the clicked checkbox's new
      state and the anchor stays; otherwise `id` alone toggles and becomes
      the anchor. */
  function Click(s: SelState, n: nat, id: nat, shift: bool): (r: SelState)
    requires Valid(s, n) && id < n
    ensures Valid(r, n)
    ensures shift && s.anchor.Some? ==>
      && r.anchor == s.anchor
      && (forall k :: Between(k, s.anchor.value, id) ==> (k in r.selected <==> id !in s.selected))
      && (forall k :: !Between(k, s.anchor.value, id) ==> (k in r.selected <==> k in s.selected))
    ensures !(shift && s.anchor.Some?) ==>
      && r.anchor == Some(id)
      && (id in r.selected <==> id !in s.selected)
      && (forall k :: k != id ==> (k in r.selected <==> k in s.selected))
  {
    var checked := id !in s.selected;
    if shift && s.anchor.Some? then
      var a := s.anchor.value;
      var range := Span(if a < id then a else id, if a < id then id else a);
      SelState(if checked then s.selected + range else s.selected - range, s.anchor)
    else
      SelState(if checked then s.selected + {id} else s.selected - {id}, Some(id))
  }

  /** `k` lies between `a` and `b`, inclusive, in either order. */
  predicate Between(k: nat, a: nat, b: nat) {
    (a <= k <= b) || (b <= k <= a)
  }

  /** Select-all checks every displayed checkbox; the anchor stays. */
  function SelectAll(s: SelState, n: nat): (r: SelState)
    requires Valid(s, n)
    ensures forall k: int :: k in r.selected <==> 0 <= k < n
    ensures r.anchor == s.anchor && Valid(r, n)
  {
    SelState(s.selected + (set k | k in Ids(n)), s.anchor)
  }

  /** Deselect-all removes every displayed id; the anchor stays. */
  function DeselectAll(s: SelState, n: nat): (r: SelState)
    requires Valid(s, n)
    ensures r.selected == {}
    ensures r.anchor == s.anchor && Valid(r, n)
  {
    SelState(s.selected - (set k | k in Ids(n)), s.anchor)
  }

  /** The display's `data-is-wrong` flag. */
  predicate IsWrong(q: Question, hidden: bool) {
    !hidden && q.myAnswer != "" && q.correctAnswer != "" && q.myAnswer != q.correctAnswer
  }

  /** The display's `data-is-correct` flag. */
  predicate IsCorrect(q: Question, hidden: bool) {
    !hidden && q.myAnswer != "" && q.correctAnswer != "" && q.myAnswer == q.correctAnswer
  }

  /** Select-wrong: clear, then select the questions flagged wrong; ids are
      the positions in the displayed list. The anchor stays. */
  function SelectWrong(s: SelState, qs: seq<Question>, hidden: bool): (r: SelState)
    ensures forall k: nat :: k in r.selected <==> k < |qs| && IsWrong(qs[k], hidden)
    ensures r.anchor == s.anchor
    ensures Valid(s, |qs|) ==> Valid(r, |qs|)
  {
    SelState((set k | k in Ids(|qs|) && IsWrong(qs[k], hidden)), s.anchor)
  }

  /** Select-correct: clear, then select the questions flagged correct. */
  function SelectCorrect(s: SelState, qs: seq<Question>, hidden: bool): (r: SelState)
    ensures forall k: nat :: k in r.selected <==> k < |qs| && IsCorrect(qs[k], hidden)
    ensures r.anchor == s.anchor
    ensures Valid(s, |qs|) ==> Valid(r, |qs|)
  {
    SelState((set k | k in Ids(|qs|) && IsCorrect(qs[k], hidden)), s.anchor)
  }

  /** The questions of the displayed list, in id order. */
  function Displayed(sections: seq<Section>): (qs: seq<Question>)
    ensures |qs| == |Entries(sections)|
    ensures forall k :: 0 <= k < |qs| ==> qs[k] == Entries(sections)[k].question
  {
    seq(|Entries(sections)|, k requires 0 <= k < |Entries(sections)| => Entries(sections)[k].question)
  }

  /** The question store: the displayed sections and the selection. */
  datatype Store = Store(sections: seq<Section>, sel: SelState)

  /** Displaying a model numbers its questions and starts an empty selection,
      whatever was selected before. */
  function Redisplay(sections: seq<Section>): (r: Store)
    ensures WellNumbered(r.sections)
    ensures r.sel.selected == {} && r.sel.anchor.None?
    ensures Valid(r.sel, Total(r.sections))
    ensures Total(r.sections) == Total(sections)
  {
    Store(AssignIds(sections), Cleared())
  }

  // ----- properties relating operations -----

  /** Two plain clicks on the same checkbox restore the selection. */
  lemma ClickTwiceRestores(s: SelState, n: nat, id: nat)
    requires Valid(s, n) && id < n
    ensures Click(Click(s, n, id, false), n, id, false).selected == s.selected
  {
    var r := Click(Click(s, n, id, false), n, id, false);
    assert forall k :: k in r.selected <==> k in s.selected;
  }

  /** A shift-click on the anchor itself changes only the anchor's own
      membership, like a plain click, but leaves the anchor in place. */
  lemma ShiftClickOnAnchor(s: SelState, n: nat)
    requires Valid(s, n) && s.anchor.Some?
    ensures var a := s.anchor.value;
      var r := Click(s, n, a, true);
      r.selected == Click(s, n, a, false).selected && r.anchor == s.anchor
  {
    var a := s.anchor.value;
    var r := Click(s, n, a, true);
    var p := Click(s, n, a, false);
    assert forall k :: k in r.selected <==> k in p.selected by {
      forall k ensures k in r.selected <==> k in p.selected {
        assert Between(k, a, a) <==> k == a;
      }
    }
  }

  /** Wrong and correct never overlap, and with answers hidden both are empty. */
  lemma WrongCorrectDisjoint(s: SelState, qs: seq<Question>, hidden: bool)
    ensures SelectWrong(s, qs, hidden).selected !! SelectCorrect(s, qs, hidden).selected
    ensures hidden ==> SelectWrong(s, qs, hidden).selected == {} && SelectCorrect(s, qs, hidden).selected == {}
  {
    if hidden {
      assert forall k :: k !in SelectWrong(s, qs, hidden).selected;
      assert forall k :: k !in SelectCorrect(s, qs, hidden).selected;
    }
  }

  /** Without hiding, wrong and correct together are exactly the questions
      with both answers present. */
  lemma WrongOrCorrect(s: SelState, qs: seq<Question>)
    ensures forall k: nat :: (k in SelectWrong(s, qs, false).selected + SelectCorrect(s, qs, false).selected
      <==> k < |qs| && qs[k].myAnswer != "" && qs[k].correctAnswer != "")
  {
  }
}

=== FILE: settings.dfy ===
/** The user's settings and how a saved copy is merged into them on
    start-up. A saved copy is a parsed JSON object; each of its fields may
    be absent. Storage itself is outside the model: the blob is a
    parameter that is missing, unparsable, or a parsed object. */
module SettingsMerge {
  import opened Wrappers

  /** The three subject templates. A field is `None` when the object
      lacks it (JavaScript's `undefined`). */
  datatype Prompts = Prompts(math: Option<string>, english: Option<string>, science: Option<string>)

  datatype AiSettings = AiSettings(
    apiType: string,
    apiKey: string,
    defaultPrompt: string,
    customPrompts: Prompts,
    showInToolbox: bool)

  datatype Settings = Settings(
    hideMyAnswers: bool,
    includeTimestamp: bool,
    showExplanation: bool,
    darkMode: bool,
    customTitle: string,
    animationsEnabled: bool,
    ai: AiSettings)

  const DefaultPrompt := "你是一位专业的题目解析助手，请根据以下题目给出详细的解答和分析。"
  const MathPrompt := "你是一位数学专家，请分析以下数学题目，给出详细的解题步骤和思路。"
  const EnglishPrompt := "你是一位优秀的英语教师，请分析以下英语题目，解释相关语法、词汇知识点和答案依据。"
  const SciencePrompt := "你是一位理科专家，请分析以下科学题目，给出详细的解答并解释相关科学原理。"

  const DefaultPrompts := Prompts(Some(MathPrompt), Some(EnglishPrompt), Some(SciencePrompt))

  /** The settings before anything is loaded. */
  const Defaults := Settings(false, true, true, false, "", true,
    AiSettings("openai", "", DefaultPrompt, DefaultPrompts, true))

  /** A saved `aiSettings` object. `customPrompts` is `None` when absent,
      `Some(None)` when present but falsy (null, false, ""), and
      `Some(Some(p))` when it is an object. */
  datatype SavedAi = SavedAi(
    apiType: Option<string>,
    apiKey: Option<string>,
    defaultPrompt: Option<string>,
    customPrompts: Option<Option<Prompts>>,
    showInToolbox: Option<bool>)

  /** A saved settings object; `aiSettings` is `None` when absent or falsy. */
  datatype Saved = Saved(
    hideMyAnswers: Option<bool>,
    includeTimestamp: Option<bool>,
    showExplanation: Option<bool>,
    darkMode: Option<bool>,
    customTitle: Option<string>,
    animationsEnabled: Option<bool>,
    aiSettings: Option<SavedAi>)

  /** What storage hands back. */
  datatype Blob = Missing | Unparsable | Parsed(saved: Saved)

  /** A defined saved field wins over the current value. */
  function Pick<T>(saved: Option<T>, current: T): (r: T)
    ensures saved.None? ==> r == current
    ensures saved.Some? ==> r == saved.value
  {
    if saved.Some? then saved.value else current
  }

  /** The shallow spread `{...current, ...saved}`, after which a falsy
      `customPrompts` is replaced by the defaults. An object is kept as it
      is, even when some of its fields are missing. */
  function MergeAi(current: AiSettings, saved: SavedAi): AiSettings {
    AiSettings(
      Pick(saved.apiType, current.apiType),
      Pick(saved.apiKey, current.apiKey),
      Pick(saved.defaultPrompt, current.defaultPrompt),
      match saved.customPrompts
      case None => current.customPrompts
      case Some(None) => DefaultPrompts
      case Some(Some(p)) => p,
      Pick(saved.showInToolbox, current.showInToolbox))
  }

  /** Loading: nothing changes without a parsable blob; each basic field
      takes the saved value when there is one; the AI settings merge only
      when the saved object has them. */
  function Load(current: Settings, blob: Blob): (r: Settings)
    ensures !blob.Parsed? ==> r == current
    ensures blob.Parsed? && blob.saved.aiSettings.None? ==> r.ai == current.ai
  {
    match blob
    case Missing => current
    case Unparsable => current
    case Parsed(s) =>
      Settings(
        Pick(s.hideMyAnswers, current.hideMyAnswers),
        Pick(s.includeTimestamp, current.includeTimestamp),
        Pick(s.showExplanation, current.showExplanation),
        Pick(s.darkMode, current.darkMode),
        Pick(s.customTitle, current.customTitle),
        Pick(s.animationsEnabled, current.animationsEnabled),
        if s.aiSettings.Some? then MergeAi(current.ai, s.aiSettings.value) else current.ai)
  }

  /** What saving writes: every field. */
  function Save(s: Settings): (saved: Saved)
    ensures saved.aiSettings.Some?
  {
    Saved(Some(s.hideMyAnswers), Some(s.includeTimestamp), Some(s.showExplanation), Some(s.darkMode),
      Some(s.customTitle), Some(s.animationsEnabled),
      Some(SavedAi(Some(s.ai.apiType), Some(s.ai.apiKey), Some(s.ai.defaultPrompt),
        Some(Some(s.ai.customPrompts)), Some(s.ai.showInToolbox))))
  }

  /** Loading what was saved restores it, whatever the settings were before. */
  lemma SaveLoad(s: Settings, current: Settings)
    ensures Load(current, Parsed(Save(s))) == s
  {
  }

  /** Loading the same blob twice is loading it once. */
  lemma LoadIdempotent(current: Settings, blob: Blob)
    ensures Load(Load(current, blob), blob) == Load(current, blob)
  {
  }

  /** All three templates are present. */
  predicate Complete(p: Prompts) {
    p.math.Some? && p.english.Some? && p.science.Some?
  }

  /** Templates stay complete unless the saved object carries an incomplete
      one; the falsy case restores the defaults. */
  lemma TemplatesAfterLoad(current: Settings, blob: Blob)
    requires Complete(current.ai.customPrompts)
    ensures var r := Load(current, blob).ai.customPrompts;
      && (Complete(r) || (blob.Parsed? && blob.saved.aiSettings.Some?
            && blob.saved.aiSettings.value.customPrompts.Some?
            && blob.saved.aiSettings.value.customPrompts.value == Some(r)))
      && (blob.Parsed? && blob.saved.aiSettings.Some? && blob.saved.aiSettings.value.customPrompts == Some(None) ==> r == DefaultPrompts)
  {
  }

  /** A partial template object is kept: a template it lacks stays missing. */
  lemma PartialTemplatesKept(current: Settings, ai: SavedAi, p: Prompts)
    requires ai.customPrompts == Some(Some(p)) && p.english.None?
    ensures Load(current, Parsed(Saved(None, None, None, None, None, None, Some(ai)))).ai.customPrompts.english.None?
  {
  }
}

=== FILE: text.dfy ===
/** String helpers with JavaScript's semantics: the `\s` class and `trim()`,
    prefix and substring tests, `String(n)` for naturals, the zero padding
    `('0' + n).slice(-2)`, and `split('\n')` / `join('\n')`.
    Strings are sequences of Unicode scalar values. */
module Text {

  /** JavaScript's white-space class, shared by `\s` and `String.prototype.trim`. */
  predicate IsSpace(c: char) {
    || c == ' ' || c == '\t' || c == '\n' || c == '\r'
    || c == '\U{000B}' || c == '\U{000C}' || c == '\U{00A0}' || c == '\U{1680}'
    || ('\U{2000}' <= c <= '\U{200A}')
    || c == '\U{2028}' || c == '\U{2029}' || c == '\U{202F}' || c == '\U{205F}'
    || c == '\U{3000}' || c == '\U{FEFF}'
  }

  /** `\d` without the `u` flag: ASCII digits only. */
  predicate IsDigit(c: char) {
    '0' <= c <= '9'
  }

  predicate IsAsciiLetter(c: char) {
    ('a' <= c <= 'z') || ('A' <= c <= 'Z')
  }

  /** ASCII lower-casing, the only case folding an `/i` regex over ASCII needs. */
  function LowerAscii(c: char): (r: char)
    ensures 'A' <= c <= 'Z' ==> r != c && r == c + ('a' - 'A')
    ensures !('A' <= c <= 'Z') ==> r == c
  {
    if 'A' <= c <= 'Z' then c - 'A' + 'a' else c
  }

  predicate AllSpace(s: string) {
    forall i :: 0 <= i < |s| ==> IsSpace(s[i])
  }

  predicate StartsWith(s: string, prefix: string) {
    |prefix| <= |s| && s[..|prefix|] == prefix
  }

  predicate EndsWith(s: string, suffix: string) {
    |suffix| <= |s| && s[|s| - |suffix|..] == suffix
  }

  /** A text built as head, middle and tail starts with the head and ends
      with the tail. */
  lemma Framed(head: string, mid: string, tail: string)
    ensures StartsWith(head + mid + tail, head) && EndsWith(head + mid + tail, tail)
  {
    var s := head + mid + tail;
    assert s[..|head|] == head;
    assert s[|s| - |tail|..] == tail;
  }

  /** Prefix test under ASCII case folding (a regex `^(...)` with the `i` flag). */
  predicate StartsWithIgnoreCase(s: string, prefix: string) {
    && |prefix| <= |s|
    && forall i :: 0 <= i < |prefix| ==> LowerAscii(s[i]) == LowerAscii(prefix[i])
  }

  /** Drops the leading white space. */
  function TrimStart(s: string): (r: string)
    ensures |r| <= |s| && r == s[|s| - |r|..]
    ensures r == [] || !IsSpace(r[0])
    ensures AllSpace(s[..|s| - |r|])
  {
    if |s| > 0 && IsSpace(s[0]) then TrimStart(s[1..]) else s
  }

  /** Drops the trailing white space. */
  function TrimEnd(s: string): (r: string)
    ensures |r| <= |s| && r == s[..|r|]
    ensures r == [] || !IsSpace(r[|r| - 1])
    ensures AllSpace(s[|r|..])
  {
    if |s| > 0 && IsSpace(s[|s| - 1]) then
      var r := TrimEnd(s[..|s| - 1]);
      assert s[|r|..] == s[..|s| - 1][|r|..] + [s[|s| - 1]];
      r
    else s
  }

  /** Neither end is white space. */
  predicate Trimmed(s: string) {
    s == [] || (!IsSpace(s[0]) && !IsSpace(s[|s| - 1]))
  }

  /** `String.prototype.trim`: the longest infix that neither starts nor ends
      with white space, all of whose surroundings are white space. */
  function Trim(s: string): (r: string)
    ensures |r| <= |s|
    ensures Trimmed(r)
    ensures r == [] <==> AllSpace(s)
  {
    var t := TrimStart(s);
    var r := TrimEnd(t);
    TrimEmpty(s);
    assert r != [] ==> r[0] == t[0];
    r
  }

  /** Trimming leaves nothing exactly when the text is all white space. */
  lemma TrimEmpty(s: string)
    ensures TrimEnd(TrimStart(s)) == [] <==> AllSpace(s)
  {
    if TrimEnd(TrimStart(s)) == [] {
      NothingLeftIsSpace(s, TrimStart(s));
    }
    if AllSpace(s) {
      TrimStartOfSpace(s);
      assert TrimEnd([]) == [];
    }
  }

  /** White space followed by a text that trims to nothing is white space. */
  lemma NothingLeftIsSpace(s: string, t: string)
    requires |t| <= |s| && t == s[|s| - |t|..] && AllSpace(s[..|s| - |t|])
    requires TrimEnd(t) == []
    ensures AllSpace(s)
  {
    assert t[0..] == t;
    var n := |s| - |t|;
    forall i | 0 <= i < |s|
      ensures IsSpace(s[i])
    {
      if i < n {
        assert s[..n][i] == s[i];
      } else {
        assert t[i - n] == s[i];
      }
    }
  }

  lemma {:induction false} TrimStartOfSpace(s: string)
    requires AllSpace(s)
    ensures TrimStart(s) == []
  {
    if |s| > 0 {
      assert IsSpace(s[0]);
      assert forall i :: 0 <= i < |s[1..]| ==> s[1..][i] == s[i + 1];
      TrimStartOfSpace(s[1..]);
    }
  }

  /** A string whose two ends are not white space is its own trim. */
  lemma {:induction false} TrimOfTrimmed(s: string)
    requires Trimmed(s)
    ensures Trim(s) == s
  {
    assert TrimStart(s) == s;
    assert TrimEnd(s) == s;
  }

  /** Trimming twice is trimming once. */
  lemma TrimIdempotent(s: string)
    ensures Trim(Trim(s)) == Trim(s)
  {
    TrimOfTrimmed(Trim(s));
  }

  // ----- substring search -----

  predicate OccursAt(s: string, sub: string, i: int) {
    0 <= i && i + |sub| <= |s| && s[i..i + |sub|] == sub
  }

  /** `s.includes(sub)`, as a left-to-right scan. */
  predicate Contains(s: string, sub: string)
    decreases |s|
  {
    if |sub| > |s| then false
    else if s[..|sub|] == sub then true
    else Contains(s[1..], sub)
  }

  /** The scan finds an occurrence exactly when one exists. */
  lemma {:induction false} ContainsIff(s: string, sub: string)
    ensures Contains(s, sub) <==> exists i :: OccursAt(s, sub, i)
    decreases |s|
  {
    if |sub| > |s| {
    } else if s[..|sub|] == sub {
      assert OccursAt(s, sub, 0);
    } else {
      ContainsIff(s[1..], sub);
      if Contains(s[1..], sub) {
        var i :| OccursAt(s[1..], sub, i);
        assert s[i + 1..i + 1 + |sub|] == s[1..][i..i + |sub|];
        assert OccursAt(s, sub, i + 1);
      }
      if exists i :: OccursAt(s, sub, i) {
        var i :| OccursAt(s, sub, i);
        assert i != 0;
        assert s[1..][i - 1..i - 1 + |sub|] == s[i..i + |sub|];
        assert OccursAt(s[1..], sub, i - 1);
      }
    }
  }

  // ----- decimal numerals -----

  function DigitChar(d: nat): (c: char)
    requires d < 10
    ensures IsDigit(c) && DigitValue(c) == d
  {
    "0123456789"[d]
  }

  function DigitValue(c: char): nat
    requires IsDigit(c)
  {
    (c - '0') as nat
  }

  predicate AllDigits(s: string) {
    forall i :: 0 <= i < |s| ==> IsDigit(s[i])
  }

  /** The value of a run of decimal digits (the reading direction of a numeral). */
  function DigitsValue(s: string): nat
    requires AllDigits(s)
  {
    if |s| == 0 then 0 else 10 * DigitsValue(s[..|s| - 1]) + DigitValue(s[|s| - 1])
  }

  /** `String(n)` for a natural number: its shortest decimal numeral. */
  function NatToString(n: nat): (r: string)
    ensures |r| >= 1 && AllDigits(r)
    ensures n >= 10 ==> |r| >= 2
  {
    if n < 10 then [DigitChar(n)] else NatToString(n / 10) + [DigitChar(n % 10)]
  }

  /** Reading the numeral back gives the number. */
  lemma {:induction false} NatToStringValue(n: nat)
    ensures DigitsValue(NatToString(n)) == n
  {
    if n >= 10 {
      NatToStringValue(n / 10);
      var s := NatToString(n);
      assert s[..|s| - 1] == NatToString(n / 10);
    }
  }

  /** `('0' + n).slice(-2)`: the last two characters of "0" followed by the numeral. */
  function Pad2(n: nat): (r: string)
    ensures |r| == 2 && AllDigits(r)
  {
    var s := "0" + NatToString(n);
    s[|s| - 2..]
  }

  /** For a two-digit-or-less number the padding reads back as the number. */
  lemma Pad2Value(n: nat)
    requires n < 100
    ensures DigitsValue(Pad2(n)) == n
  {
    var p := Pad2(n);
    var q := n / 10;
    if n < 10 {
      assert p == ['0', DigitChar(n)];
      assert p[..1] == ['0'];
      assert ['0'][..0] == [];
    } else {
      assert NatToString(n) == NatToString(q) + [DigitChar(n % 10)];
      assert NatToString(q) == [DigitChar(q)];
      assert p == [DigitChar(q), DigitChar(n % 10)];
      assert p[..1] == [DigitChar(q)];
      assert [DigitChar(q)][..0] == [];
      assert DigitsValue(p[..1]) == q;
      assert DigitsValue(p) == 10 * q + n % 10;
    }
  }

  // ----- lines -----

  /** Index of the first `c` in `s`, or `|s|` when there is none. */
  function IndexOf(s: string, c: char): (r: nat)
    ensures r <= |s|
    ensures r < |s| ==> s[r] == c
    ensures forall i :: 0 <= i < r ==> s[i] != c
  {
    if |s| == 0 then 0 else if s[0] == c then 0 else 1 + IndexOf(s[1..], c)
  }

  /** `s.split(c)` for a one-character separator: never empty. */
  function Split(s: string, c: char): (r: seq<string>)
    ensures |r| >= 1
    decreases |s|
  {
    var i := IndexOf(s, c);
    if i == |s| then [s] else [s[..i]] + Split(s[i + 1..], c)
  }

  /** `xs.join(c)`. */
  function Join(xs: seq<string>, c: char): string {
    if |xs| == 0 then ""
    else if |xs| == 1 then xs[0]
    else xs[0] + [c] + Join(xs[1..], c)
  }

  predicate Free(s: string, c: char) {
    forall i :: 0 <= i < |s| ==> s[i] != c
  }

  /** Splitting a join on the same separator gives back the pieces, as long as
      there is at least one and none of them holds the separator. */
  lemma {:induction false} SplitJoin(xs: seq<string>, c: char)
    requires |xs| >= 1
    requires forall k :: 0 <= k < |xs| ==> Free(xs[k], c)
    ensures Split(Join(xs, c), c) == xs
  {
    if |xs| == 1 {
      assert IndexOf(xs[0], c) == |xs[0]|;
    } else {
      var s := Join(xs, c);
      var rest := Join(xs[1..], c);
      assert s == xs[0] + [c] + rest;
      assert IndexOf(s, c) == |xs[0]| by {
        assert s == xs[0] + ([c] + rest);
        assert Free(xs[0], c);
        IndexOfPrefix(xs[0], [c] + rest, c);
      }
      assert s[..|xs[0]|] == xs[0];
      assert s[|xs[0]| + 1..] == rest;
      SplitJoin(xs[1..], c);
      assert [xs[0]] + xs[1..] == xs;
    }
  }

  lemma {:induction false} IndexOfPrefix(a: string, b: string, c: char)
    requires Free(a, c) && |b| > 0 && b[0] == c
    ensures IndexOf(a + b, c) == |a|
  {
    if |a| > 0 {
      assert (a + b)[1..] == a[1..] + b;
      IndexOfPrefix(a[1..], b, c);
    }
  }

  /** A join of non-empty pieces is non-empty exactly when there is a piece. */
  lemma {:induction false} JoinEmpty(xs: seq<string>, c: char)
    requires forall k :: 0 <= k < |xs| ==> xs[k] != ""
    ensures Join(xs, c) == "" <==> |xs| == 0
  {
    if |xs| >= 2 {
      assert |Join(xs, c)| >= |xs[0]| + 1;
    }
  }

  function Max(a: int, b: int): int {
    if a < b then b else a
  }

  function Min(a: int, b: int): int {
    if a < b then a else b
  }

  /** The longest length among a list of strings, 0 for none. */
  function LongestLength(xs: seq<string>): (r: nat)
    ensures forall k :: 0 <= k < |xs| ==> |xs[k]| <= r
    ensures r == 0 || exists k :: 0 <= k < |xs| && |xs[k]| == r
  {
    if |xs| == 0 then 0
    else
      var m := LongestLength(xs[1..]);
      assert forall k :: 1 <= k < |xs| ==> |xs[k]| == |xs[1..][k - 1]|;
      if |xs[0]| >= m then |xs[0]| else m
  }
}

=== FILE: wrappers.dfy ===
/** Failure-carrying values used across the model: `Option` stands for a
    JavaScript value that may be `null`/`undefined`, `Result` for an
    operation that reports an error status instead of producing output. */
module Wrappers {

  datatype Option<+T> = None | Some(value: T) {

    /** The wrapped value, or `default` when absent (JavaScript's `x ?? d`). */
    function GetOr(default: T): T {
      match this
      case Some(v) => v
      case None => default
    }
  }

  datatype Result<+R, +E> = Success(value: R) | Failure(error: E)
}
